=== FILE: README.md ===
# go-sniffer core, modelled in Dafny

go-sniffer captures TCP traffic on a device and hands each reassembled flow
to a protocol plugin. The plugin splits the byte stream into protocol units
and prints a one-line trace per interesting request. This project models
four pieces of that system:

- The **MongoDB plugin**. It frames the MongoDB wire protocol: a 16-byte
  little-endian header, then `messageLength - 16` body bytes. It decides
  each unit's direction from the source port, keeps a per-flow stream
  table, and dispatches client requests by opcode. OP_MSG is then split
  by section kind.
- The **Redis plugin**. It works line by line. Server lines are traced
  only when they are `-ERR` replies. A client line starting with `*`
  opens an array of N elements, where N is the single character after
  the `*`. The command is rebuilt from the odd-indexed lines that follow.
- The **Postgres plugin**. Its framer is a stub, so every unit is empty
  and none reaches a handler.
- The **command line** (`Run`, `parseInternalCmd`, `parsePlugCmd`). It is
  a pure function from the argument vector to the action taken.

The three plugins share a `SetFlag` loop over `-p <port>` pairs. The
plugins differ in when the parsed port is stored. They also share the
capture filter `"tcp and port " + Itoa(port)` and the direction test. A
unit comes from the server exactly when its source port prints as the
configured port.

The Go library calls the core relies on are written out in
`strconv.dfy` and `gostrings.dfy`:

- `strconv.Atoi` and `strconv.Itoa`.
- `strings.HasPrefix`.
- `strings.Trim` with the cutset `"--"`, which is the set {'-'}.
- `strings.EqualFold`.

Modules: `Wrappers`, `GoStrings`, `Strconv`, `Plugin` (shared plugin
shape), `Registry` (per-flow stream table), `MongoWire` (framing),
`MongoOps` (opcode dispatch), `Mongodb`, `Redis`, `Postgres`, `Cmd`.

All I/O becomes data:

- A MongoDB or Postgres flow is the `seq<Byte>` the reader would deliver.
- A Redis flow is the sequence of lines `bufio.ReadLine` would return.
- `os.Args` is a `seq<string>`.
- A trace line is an `Outcome`/`Event` value without its timestamp and
  addresses.
- A panic or `os.Exit` is a `FlagOutcome` or `Action` value.

## Model

| member | source | states |
|---|---|---|
| Mongodb.NewInstance | go-sniffer/plugSrc/mongodb/build/entry.go:45-54 | The first call builds the instance with port 27017, version "0.1" and an empty stream table; any later call returns the existing instance unchanged. |
| Mongodb.SetFlag | go-sniffer/plugSrc/mongodb/build/entry.go:56-83 | An empty list keeps the port. Any length other than 2 or 3 panics on the count, and length 3 always panics. The flags are accepted iff they are exactly `-p` and an in-range decimal port, and then the port becomes that value. For length 2 or 3, a wrong first key panics with the old port, a first value Atoi rejects (not a decimal, or outside the 64-bit range) panics before anything is stored, and a number outside 0 to 65535 is stored and then panics. A valid first pair in a list of 3 is stored and then panics on the missing value index. |
| Plugin.ApplyPairs | go-sniffer/plugSrc/mongodb/build/entry.go:64-82 | The pair loop never exits the process. It succeeds iff the rest of the list is an even run of valid `-p <port>` pairs, and then the last pair's value is the resulting port. The first pair decides how a failure looks: a dangling key panics on the index and a wrong key panics, both with the port held so far; a non-numeric value panics holding Atoi's fallback when values are stored before the check and the old port otherwise; an out-of-range number is stored and panics. |
| Plugin.ApplyPairsSkipsValid | go-sniffer/plugSrc/postgres/build/entry.go:189-208 | A run of valid pairs is passed over: the loop continues at the next pair holding the port the previous pair stored. |
| Mongodb.BPFFilter | go-sniffer/plugSrc/mongodb/build/entry.go:85-87 | The filter is "tcp and port " followed by the decimal form of the instance's port. |
| Plugin.FilterNamesPort | go-sniffer/plugSrc/mongodb/build/entry.go:85-87 | Parsing what follows the filter prefix with Atoi gives back the configured port, for any 64-bit port. |
| Mongodb.ResolveStream | go-sniffer/plugSrc/mongodb/build/entry.go:93-120 | The flow key gains a stream only if it had none: existing entries, including the key's own, are kept; the units of the flow go to the key's stream; port and version are untouched. |
| Registry.Register | go-sniffer/plugSrc/mongodb/build/entry.go:99-107 | The table's keys grow by exactly the flow key; a fresh stream is used only for an absent key, and no existing entry changes. |
| Registry.RouteAllInvariant | go-sniffer/plugSrc/mongodb/build/entry.go:96-118 | Over any sequence of flows, with fresh streams numbered consecutively, the table stays one-to-one, no entry once made changes, and each flow's units go to the stream its key maps to. |
| Registry.SameFlowSameStream | go-sniffer/plugSrc/mongodb/build/entry.go:99-118 | Two calls for the same flow key route to the same stream. |
| Registry.DifferentFlowsDifferentStreams | go-sniffer/plugSrc/mongodb/build/entry.go:99-107 | Calls for different flow keys never share a stream. |
| Mongodb.NewPacket | go-sniffer/plugSrc/mongodb/build/entry.go:122-172 | newPacket gives nil exactly when fewer than 16 bytes remain (end of stream or a short header alike); otherwise the unit is client-to-server iff the source port does not print as the configured port, and everything else is what readStream read: the opcode and the wrapped body length from the header, zero request IDs, the flow, and a payload of at most the body length that, with the header and the remaining stream, makes up the input (the stream is used up when the copy falls short). |
| Mongodb.ReadUnits | go-sniffer/plugSrc/mongodb/build/entry.go:111-119 | Every unit queued for a flow carries the same direction, decided by that flow's source port. |
| Mongodb.ReadUnitsEncoded | go-sniffer/plugSrc/mongodb/build/entry.go:337-365 | Back-to-back well-formed messages followed by fewer than 16 stray bytes are read as one unit per message, in order, each with exactly its own opcode and body. |
| Mongodb.SingleUnit | go-sniffer/plugSrc/mongodb/build/entry.go:337-365 | A flow holding exactly one well-formed message yields exactly that message's unit. |
| Mongodb.ServerFlowSilent | go-sniffer/plugSrc/mongodb/build/entry.go:174-189 | Units of a flow whose source port is the configured port never produce a trace. |
| Mongodb.InsertTrace | go-sniffer/plugSrc/mongodb/build/entry.go:217-226 | An OP_INSERT body of flags, collection name and document is traced as an Insert showing the collection name and the document. |
| Mongodb.InsertScenario | go-sniffer/plugSrc/mongodb/build/entry.go:217-226 | An insert sent from a client port, framed as a whole message, becomes one unit whose trace shows the collection and the document. |
| MongoOps.ResolvePacket | go-sniffer/plugSrc/mongodb/build/entry.go:174-189 | Server-direction units produce nothing; client units with an opcode outside the switch produce nothing. |
| MongoOps.ResolveClientPacket | go-sniffer/plugSrc/mongodb/build/entry.go:191-335 | The result is silent exactly for an opcode outside the switch. A fixed-layout opcode is abandoned exactly when its layout cannot be read, and traced otherwise; OP_MSG is abandoned exactly when fewer than five bytes hold the flags and kind or its section is abandoned. A trace for a fixed-layout opcode carries that opcode's label and the fields of the kinds its layout shows; a kind notice only arises for OP_MSG, names the fifth body byte and is neither kind 0 nor kind 1. |
| MongoOps.ResolveMsg | go-sniffer/plugSrc/mongodb/build/entry.go:287-329 | OP_MSG never stays silent: it traces a body section or a document sequence, prints the unknown-kind notice for the fifth byte, or is abandoned. It is abandoned exactly when fewer than five bytes hold the flags and kind, or when the section after them is abandoned. |
| MongoOps.ResolveSection | go-sniffer/plugSrc/mongodb/build/entry.go:292-328 | Kind 0 traces its document iff a whole document follows, and is abandoned exactly when it does not. Kind 1, and only kind 1, traces the bare label with no fields. Every other kind, and only those, prints the notice with that kind. |
| MongoOps.MsgHeadFields | go-sniffer/plugSrc/mongodb/build/entry.go:289-290 | Reading the OP_MSG flags and kind succeeds iff the body has at least five bytes, and the kind is the fifth byte. |
| MongoOps.ResolveFixed | go-sniffer/plugSrc/mongodb/build/entry.go:200-286 | A fixed-layout request is either traced with its own label and the fields of the kinds its layout shows, or abandoned. It is abandoned exactly when reading its layout runs out of bytes. |
| MongoOps.ReadFields | go-sniffer/plugSrc/mongodb/build/entry.go:203-207 | A successful read of a layout gives one field per kind, each of that kind. What is left over is a suffix of the input, so the reads consume a prefix. |
| MongoOps.ReadField | go-sniffer/plugSrc/mongodb/build/entry.go:203-207 | A field read gives a field of the requested kind and leaves a strictly shorter suffix. It fails exactly when the bytes run out: fewer than 4 or 8 bytes for an integer, none for a byte, no zero byte for a C string, or a document length prefix missing or outside 4 to the bytes left. |
| MongoOps.ReadEncodedFields | go-sniffer/plugSrc/mongodb/build/entry.go:200-286 | Reading a layout back from the wire form of its fields gives exactly those fields and leaves what follows untouched. |
| MongoOps.ReadEncodedField | go-sniffer/plugSrc/mongodb/build/entry.go:203-207 | Each field kind (int32, int64, byte, C string, document) reads back from its own wire form. |
| MongoOps.TraceOfRequest | go-sniffer/plugSrc/mongodb/build/entry.go:200-286 | A fixed-layout request whose body holds its fields is traced with exactly the fields that opcode shows, whatever follows them. |
| MongoOps.TraceOfMsgBody | go-sniffer/plugSrc/mongodb/build/entry.go:287-298 | An OP_MSG with kind 0 is traced with its document. |
| MongoOps.TraceOfMsgSequence | go-sniffer/plugSrc/mongodb/build/entry.go:299-333 | An OP_MSG with kind 1 still gives the header-only trace line. |
| MongoOps.NoTraceForUnknownKind | go-sniffer/plugSrc/mongodb/build/entry.go:326-328 | An OP_MSG with any other kind gives only the notice, never a trace line. |
| MongoWire.ReadStream | go-sniffer/plugSrc/mongodb/build/entry.go:337-365 | An empty stream gives EOF and 1-15 bytes give an unexpected EOF. Otherwise the body length is the 32-bit difference of the declared length and 16. The opcode is the last header word, and requestID and responseTo stay 0. The body is at most the body length; a short copy consumes the rest of the stream. Header, body and rest add up to the input. |
| MongoWire.BodyLength | go-sniffer/plugSrc/mongodb/build/entry.go:351-353 | A declared length of at least 16 loses the header size; one below 16 wraps to just under 2^32. |
| MongoWire.ReadEncoded | go-sniffer/plugSrc/mongodb/build/entry.go:337-365 | Reading a well-formed message gives its opcode and exactly its body, leaves what follows untouched and drops requestID and responseTo. |
| MongoWire.ShortLengthSwallowsStream | go-sniffer/plugSrc/mongodb/build/entry.go:351-360 | A declared length below 16 makes the copy swallow everything after the header. |
| Strconv.Atoi | go-sniffer/plugSrc/mongodb/build/entry.go:70 | Parsing gives a 64-bit value, or a range error clamped to the 64-bit bounds, or a syntax error. |
| Strconv.AtoiMeaning | go-sniffer/plugSrc/mongodb/build/entry.go:70 | A well-formed decimal (optional sign, then digits) parses to its value when that fits in 64 bits and to the clamped bound otherwise; anything else is never a number. |
| Strconv.AtoiItoa | go-sniffer/plugSrc/mongodb/build/entry.go:86 | Every 64-bit integer printed by Itoa parses back to itself. |
| Strconv.Itoa | go-sniffer/plugSrc/mongodb/build/entry.go:86 | The decimal form starts with '-' iff the number is negative, and its digits denote the absolute value. There are no leading zeros: only zero itself starts with '0', and a negative form never has '0' after the sign. |
| GoStrings.Trim | go-sniffer/core/cmd.go:57 | The result neither starts nor ends with the cut character and is the input with a run of it removed from each end. |
| GoStrings.TrimUnique | go-sniffer/core/cmd.go:57 | A run of the cut character, a core neither starting nor ending with it, and another run trim to exactly that core. |
| GoStrings.TrimPadded | go-sniffer/core/cmd.go:57 | Adding any number of cut characters on either side does not change the trimmed result. |
| GoStrings.EqualFoldWithoutLetters | go-sniffer/plugSrc/redis/build/entry.go:58 | Against a string without letters, case-insensitive equality is plain equality. |
| Redis.NewInstance | go-sniffer/plugSrc/redis/build/entry.go:27-34 | As the package initialises it, before any SetFlag, the one global instance has port 6379 and version "0.1". NewInstance always hands out that instance, so a later SetFlag changes the port it holds. |
| Redis.CountOf | go-sniffer/plugSrc/redis/build/entry.go:84-85 | The element count is the digit at position 1, and 0 for any other character, so only one digit is ever read. |
| Redis.ResolveClient | go-sniffer/plugSrc/redis/build/entry.go:79-95 | resolveClient consumes exactly 2N lines and gives " " followed by " " + v for each odd-indexed line v, in order. |
| Redis.CollectIsSpaced | go-sniffer/plugSrc/redis/build/entry.go:86-92 | The j-loop that skips even lines and appends odd ones builds the spaced list of the element values. |
| Redis.ResolveLines | go-sniffer/plugSrc/redis/build/entry.go:36-77 | No more events than lines. The server side emits only -ERR replies, and the client side never emits one. An index panic can only be the last event. |
| Redis.ResolveStream | go-sniffer/plugSrc/redis/build/entry.go:36-77 | A flow from the configured port yields only -ERR replies, and any other flow yields no error replies. |
| Redis.DirectionIsExact | go-sniffer/plugSrc/redis/build/entry.go:58 | The case-insensitive port comparison decides direction exactly as the other plugins' exact comparison does. |
| Redis.ServerLinesAppend | go-sniffer/plugSrc/redis/build/entry.go:58-65 | Server lines are handled one at a time: the events of two runs of lines are those of each, concatenated. |
| Redis.ServerLine | go-sniffer/plugSrc/redis/build/entry.go:97-103 | A server line is traced iff it starts with "-ERR". |
| Redis.ServerReplyExamples | go-sniffer/plugSrc/redis/build/entry.go:97-103 | "-ERR wrong type" is traced; "+OK" and "-WRONGTYPE ..." are not. |
| Redis.EmptyLineSilent | go-sniffer/plugSrc/redis/build/entry.go:44-51 | An empty line never produces a trace, in either direction. |
| Redis.NonArrayClientLineDropped | go-sniffer/plugSrc/redis/build/entry.go:67-70 | A client line not starting with "*" is dropped without output. |
| Redis.BareStarPanics | go-sniffer/plugSrc/redis/build/entry.go:84 | A client line that is exactly "*" ends the stream with the index panic. |
| Redis.CommandRoundTrip | go-sniffer/plugSrc/redis/build/entry.go:79-95 | A command of one to nine arguments in RESP array form is traced as its arguments, each after a space, and decoding resumes right after it. |
| Redis.SetFooBar | go-sniffer/plugSrc/redis/build/entry.go:68-72 | The array form of SET foo bar is traced as "  SET foo bar". |
| Redis.SetFlag | go-sniffer/plugSrc/redis/build/entry.go:108-135 | Same count, key, range and missing-index rejections as MongoDB, for lengths 2 and 3. A value that does not parse is still stored (as Atoi's fallback result) before the panic. |
| Redis.BPFFilter | go-sniffer/plugSrc/redis/build/entry.go:140-142 | The filter names the global instance's port, whatever the receiver holds. |
| Postgres.NewInstance | go-sniffer/plugSrc/postgres/build/entry.go:40-51 | The first call builds the instance with port 5432, version "0.1" and an empty table; later calls return it. |
| Postgres.ResolvePacketTo | go-sniffer/plugSrc/postgres/build/entry.go:113-114 | The framer returns sequence 0 and no error, reads nothing and writes nothing. |
| Postgres.PacketFrom | go-sniffer/plugSrc/postgres/build/entry.go:81-111 | Any framing error gives nil; otherwise the packet's length is the number of bytes written and it is client-to-server unless the source port is the configured one. |
| Postgres.NewPacket | go-sniffer/plugSrc/postgres/build/entry.go:81-111 | newPacket never returns nil, and every packet has sequence 0, length 0 and an empty payload. |
| Postgres.Pump | go-sniffer/plugSrc/postgres/build/entry.go:70-78 | The read loop yields a packet on every turn, so any number of turns gives that many packets. |
| Postgres.PumpEmpty | go-sniffer/plugSrc/postgres/build/entry.go:70-78 | Every queued packet is the same empty packet in the flow's direction, whatever the stream holds. |
| Postgres.Dispatch | go-sniffer/plugSrc/postgres/build/entry.go:141-154 | Only a packet of non-zero length reaches a handler: the client handler for client-to-server, the server handler otherwise. |
| Postgres.NoHandlerRuns | go-sniffer/plugSrc/postgres/build/entry.go:141-154 | No queued packet ever reaches either handler. |
| Postgres.ResolveStream | go-sniffer/plugSrc/postgres/build/entry.go:53-79 | A stream is created only for an absent flow key, others are untouched, and any number of loop turns queues that many packets, each the same empty packet in the flow's direction. |
| Postgres.SetFlag | go-sniffer/plugSrc/postgres/build/entry.go:180-210 | The process exits iff there is exactly one item. An odd list never succeeds. The flags are accepted iff they form `-p <port>` pairs with valid ports, and the last pair's value becomes the port. |
| Postgres.SetFlagFailure | go-sniffer/plugSrc/postgres/build/entry.go:189-208 | A failing list of two or more fails at its first bad pair at an even index, after only valid pairs. A dangling key or a wrong key panics with the port stored so far. A non-numeric value panics holding Atoi's fallback, because it is stored first. An out-of-range number is stored and panics. |
| Postgres.BPFFilter | go-sniffer/plugSrc/postgres/build/entry.go:172-174 | The filter names the instance's port. |
| Postgres.Version | go-sniffer/plugSrc/postgres/build/entry.go:176-178 | The Postgres plugin reports the constant "0.1" whatever the instance field holds. |
| Cmd.Run | go-sniffer/core/cmd.go:35-50 | No argument gives the usage. A first argument starting with "--" is an internal command. A capture happens iff there is a device and a plugin name from the known list, passing on device, name and remaining arguments. A lone device is a missing plugin. |
| Cmd.ParseInternalCmd | go-sniffer/core/cmd.go:54-82 | The name is the argument with all outer dashes removed. "env" and "list" both list the plugins, "ver" shows the version and "dev" the devices. Any other name shows help. |
| Cmd.ParsePlugCmd | go-sniffer/core/cmd.go:141-170 | Fewer than three arguments is a missing plugin; a name outside the list is unknown; otherwise the capture gets argument 1 as device, 2 as plugin, the rest as parameters. |
| Cmd.IsElement | go-sniffer/core/cmd.go:153-161 | Scanning the whole list finds the name iff it is one of the five plugin names. |
| Cmd.DashPadding | go-sniffer/core/cmd.go:44-57 | Any number of dashes beyond the first two, on either side, leaves the internal command unchanged. |
| Cmd.ParsePadded | go-sniffer/core/cmd.go:56-57 | Dashes on either side of a name do not change the internal command it selects. |
| Cmd.VersionSpellings | go-sniffer/core/cmd.go:56-71 | "---ver" and "--ver-" both ask for the version. |
| Cmd.PluginNameIsExact | go-sniffer/core/cmd.go:150-169 | "Redis" is an unknown plugin while "redis" starts a capture with the parameters after it. |

## Left out

- Goroutines and channels are not modelled: the per-stream `resolve`
  loops, the 100-slot packet channel, blocking sends, and Redis's `done`
  channel. Units are returned as a sequence in queue order instead.
- Redis's end of stream: `ResolveLines` stops when the lines run out. The
  source instead reads one raw byte and sends on the never-initialised
  `done` channel, which blocks forever; that is concurrency.
- The Redis raw `r.Read` of one byte after an empty line is left out. It
  reads beneath the `bufio` reader, and reader buffering is not modelled.
  An empty line is dropped like any other line.
- Postgres.Pump: the loop never ends, so the model observes only its
  first `n` turns.
- Trace text is not modelled: timestamps (`time.Now`), the `fmt` layout,
  the direction marker and the addresses. A trace is the label and the
  fields shown.
- The MongoDB `Read*` cursor helpers and BSON-to-JSON rendering are not
  part of this model. Fields are read by kind, and documents are opaque
  byte strings that carry their own little-endian length. A short read
  abandons the message (`Abandoned`); the real helpers' failure
  behaviour is not visible.
- The MongoDB opcode and section-kind constants are not defined in the
  files modelled. The model uses the MongoDB Wire Protocol values: 2001
  update, 2002 insert, 2004 query, 2005 get more, 2006 delete, 2010
  command, 2013 message; section kind 0 is a body and kind 1 a document
  sequence.
- Mongodb.NewPacket: the "close" notice printed at a clean end of stream
  and the "ERR : Unknown stream" notice printed on a short header are
  output only and not modelled. Both cases give nil, so the model does
  not tell them apart.
- The commented-out Postgres framer and the commented-out OP_MSG
  document-sequence parser are disabled code and not modelled. The
  `fmt.Println(pk.payload)` of the kind-1 case is output only.
- The MongoDB server-side handler and the Postgres client and server
  handlers are left out: they return without doing anything.
- Flows (`gopacket.Flow`, `FastHash`, `Endpoints`) are abstract. A flow is
  a pair of endpoint strings. The flow key is a given string, and a
  fresh stream is a given number.
- From `cmd.go`, `printDevice`, the help text and the `Plug` methods are
  left out. These are `net.Interfaces`, printing, `PrintList` and
  `SetOption`. They appear only as the action returned. `core.go` is
  bootstrap wiring and is not part of this model.
- GoStrings.EqualFold: case folding covers ASCII letters only. The port
  string it is compared with has no letters, so direction is unaffected.
- Strconv.Atoi: only base-10 `Atoi` is modelled. Underscores and other
  bases, which `Atoi` rejects anyway, have no special paths.
- Redis.SetFlag, Mongodb.SetFlag, Postgres.SetFlag: the stored port is
  returned inside the outcome. Writing it into the global instance is
  not modelled as state.

=== FILE: cmd.dfy ===
/**
 * The command line of go-sniffer: Run, parseInternalCmd and parsePlugCmd as
 * a pure function from the argument vector (os.Args, program name first) to
 * the action taken. Printing, listing devices and configuring the plugin
 * are the consequences of an action, not part of the decision.
 */
module Cmd {
  import opened GoStrings

  const InternalCmdPrefix := "--"
  const InternalCmdHelp := "help"
  const InternalCmdEnv := "env"
  const InternalCmdList := "list"
  const InternalCmdVer := "ver"
  const InternalDevice := "dev"

  /** The plugins a capture may name, exactly as spelled. */
  const AvailablePlugNames: seq<string> := ["mysql", "redis", "postgres", "http", "mongodb"]

  /** What an internal ("--") command does before the process exits with status 1. */
  datatype InternalCmd = ShowHelp | ListPlugins | ShowVersion | ShowDevices

  /**
   * The outcome of Run. Every action but Capture ends with os.Exit(1):
   * Usage prints help, MissingPlugin and UnknownPlugin print an error and
   * help. Capture hands the device, plugin name and parameters on.
   */
  datatype Action =
    | Usage
    | Internal(cmd: InternalCmd)
    | MissingPlugin
    | UnknownPlugin(name: string)
    | Capture(device: string, plugin: string, params: seq<string>)

  /**
   * parseInternalCmd: strings.Trim with cutset "--" strips every leading
   * and trailing '-'; "env" and "list" both list the plugins, and any name
   * not recognised shows help.
   */
  function ParseInternalCmd(arg: string): (c: InternalCmd)
    ensures c == ListPlugins <==> Trim(arg, '-') in {InternalCmdEnv, InternalCmdList}
    ensures c == ShowVersion <==> Trim(arg, '-') == InternalCmdVer
    ensures c == ShowDevices <==> Trim(arg, '-') == InternalDevice
    ensures c == ShowHelp <==> Trim(arg, '-') !in {InternalCmdEnv, InternalCmdList, InternalCmdVer, InternalDevice}
  {
    var name := Trim(arg, '-');
    if name == InternalCmdHelp then ShowHelp
    else if name == InternalCmdEnv || name == InternalCmdList then ListPlugins
    else if name == InternalCmdVer then ShowVersion
    else if name == InternalDevice then ShowDevices
    else ShowHelp
  }

  /** The closure of parsePlugCmd that scans the whole list, without stopping at a match. */
  method IsElement(plugName: string) returns (isElement: bool)
    ensures isElement <==> plugName in AvailablePlugNames
  {
    isElement := false;
    var i := 0;
    while i < |AvailablePlugNames|
      invariant 0 <= i <= |AvailablePlugNames|
      invariant isElement <==> plugName in AvailablePlugNames[..i]
    {
      if plugName == AvailablePlugNames[i] {
        isElement := true;
      }
      i := i + 1;
    }
    assert AvailablePlugNames[..i] == AvailablePlugNames;
  }

  /** parsePlugCmd: a device and a plugin name are needed, and the name must be one of the known plugins. */
  function ParsePlugCmd(args: seq<string>): (a: Action)
    ensures |args| < 3 <==> a == MissingPlugin
    ensures a.UnknownPlugin? <==> |args| >= 3 && args[2] !in AvailablePlugNames
    ensures a.UnknownPlugin? ==> a.name == args[2]
    ensures a.Capture? <==> |args| >= 3 && args[2] in AvailablePlugNames
    ensures a.Capture? ==> a.device == args[1] && a.plugin == args[2] && a.params == args[3..]
  {
    if |args| < 3 then MissingPlugin
    else if args[2] !in AvailablePlugNames then UnknownPlugin(args[2])
    else Capture(args[1], args[2], args[3..])
  }

  /** Run: no argument shows the usage; a first argument starting with "--" is an internal command; anything else names a capture. */
  function Run(args: seq<string>): (a: Action)
    ensures |args| <= 1 <==> a == Usage
    ensures a.Internal? <==> |args| >= 2 && HasPrefix(args[1], InternalCmdPrefix)
    ensures a.Internal? ==> a.cmd == ParseInternalCmd(args[1])
    ensures a.Capture? <==> |args| >= 3 && !HasPrefix(args[1], InternalCmdPrefix) && args[2] in AvailablePlugNames
    ensures a.Capture? ==> a.device == args[1] && a.plugin == args[2] && a.params == args[3..]
    ensures a.UnknownPlugin? ==> |args| >= 3 && a.name == args[2] && args[2] !in AvailablePlugNames
    ensures a == MissingPlugin <==> |args| == 2 && !HasPrefix(args[1], InternalCmdPrefix)
  {
    if |args| <= 1 then Usage
    else if HasPrefix(args[1], InternalCmdPrefix) then Internal(ParseInternalCmd(args[1]))
    else ParsePlugCmd(args)
  }

  /** Any number of dashes beyond the first two, on either side, leaves the internal command unchanged. */
  lemma DashPadding(prog: string, w: string, i: nat, j: nat, rest: seq<string>)
    ensures Run([prog, Repeat('-', i + 2) + w + Repeat('-', j)] + rest) == Internal(ParseInternalCmd(w))
  {
    var arg := Repeat('-', i + 2) + w + Repeat('-', j);
    assert ([prog, arg] + rest)[1] == arg;
    DashPrefixed(w, i, j);
    TrimPadded(w, '-', i + 2, j);
  }

  lemma DashPrefixed(w: string, i: nat, j: nat)
    ensures HasPrefix(Repeat('-', i + 2) + w + Repeat('-', j), InternalCmdPrefix)
  {
    var arg := Repeat('-', i + 2) + w + Repeat('-', j);
    assert arg[0] == '-' && arg[1] == '-';
    assert arg[..2] == InternalCmdPrefix;
  }

  /** Dashes on either side of a name do not change the internal command it selects. */
  lemma ParsePadded(w: string, i: nat, j: nat)
    ensures ParseInternalCmd(Repeat('-', i) + w + Repeat('-', j)) == ParseInternalCmd(w)
  {
    TrimPadded(w, '-', i, j);
  }

  lemma TrimVer()
    ensures Trim(InternalCmdVer, '-') == InternalCmdVer
  {
    TrimUnique([], InternalCmdVer, [], '-');
    assert [] + InternalCmdVer + [] == InternalCmdVer;
  }

  /** "---ver" and "--ver-" both ask for the version. */
  lemma VersionSpellings()
    ensures ParseInternalCmd("---ver") == ShowVersion
    ensures ParseInternalCmd("--ver-") == ShowVersion
  {
    TrimVer();
    assert ParseInternalCmd(InternalCmdVer) == ShowVersion;
    assert Repeat('-', 3) + InternalCmdVer + Repeat('-', 0) == "---ver" by {
      assert Repeat('-', 3) == "---";
    }
    assert Repeat('-', 2) + InternalCmdVer + Repeat('-', 1) == "--ver-" by {
      assert Repeat('-', 2) == "--" && Repeat('-', 1) == "-";
    }
    ParsePadded(InternalCmdVer, 3, 0);
    ParsePadded(InternalCmdVer, 2, 1);
  }

  /** Plugin names are matched exactly: a capitalised name is unknown. */
  lemma PluginNameIsExact(prog: string, device: string)
    requires !HasPrefix(device, InternalCmdPrefix)
    ensures Run([prog, device, "Redis"]) == UnknownPlugin("Redis")
    ensures Run([prog, device, "redis", "-p", "6380"]) == Capture(device, "redis", ["-p", "6380"])
  {
    assert "Redis"[0] != "redis"[0];
    assert [prog, device, "redis", "-p", "6380"][3..] == ["-p", "6380"];
  }
}

=== FILE: gostrings.dfy ===
/**
 * The few functions of Go's `strings` package the sniffer relies on, over
 * `string` (one `char` per byte of the Go string).
 */
module GoStrings {

  /** strings.HasPrefix */
  predicate HasPrefix(s: string, prefix: string) {
    |prefix| <= |s| && s[..|prefix|] == prefix
  }

  /** Every character of `t` is `c`. */
  predicate AllChar(t: string, c: char) {
    forall i :: 0 <= i < |t| ==> t[i] == c
  }

  /** `n` copies of the character `c`. */
  function Repeat(c: char, n: nat): (t: string)
    ensures |t| == n && AllChar(t, c)
  {
    if n == 0 then [] else [c] + Repeat(c, n - 1)
  }

  /** Length of the longest prefix of `s` made only of `c`. */
  function LeadingRun(s: string, c: char): (n: nat)
    ensures n <= |s|
    ensures forall i :: 0 <= i < n ==> s[i] == c
    ensures n < |s| ==> s[n] != c
    decreases |s|
  {
    if |s| > 0 && s[0] == c then 1 + LeadingRun(s[1..], c) else 0
  }

  /** Length of the longest suffix of `s` made only of `c`. */
  function TrailingRun(s: string, c: char): (n: nat)
    ensures n <= |s|
    ensures forall i :: |s| - n <= i < |s| ==> s[i] == c
    ensures n < |s| ==> s[|s| - n - 1] != c
    decreases |s|
  {
    if |s| > 0 && s[|s| - 1] == c then 1 + TrailingRun(s[..|s| - 1], c) else 0
  }

  /**
   * strings.Trim(s, cutset) for a cutset whose only character is `c`
   * (a cutset such as "--" is the set {'-'}): every leading and every
   * trailing `c` is removed, the left side first.
   */
  function Trim(s: string, c: char): (r: string)
    ensures |r| <= |s|
    ensures r == [] || (r[0] != c && r[|r| - 1] != c)
    ensures exists k :: TrimmedAt(s, r, k, c)
  {
    var k := LeadingRun(s, c);
    var l := s[k..];
    var r := l[..|l| - TrailingRun(l, c)];
    assert TrimmedAt(s, r, k, c) by {
      assert s[k..k + |r|] == r;
    }
    r
  }

  /** `s` is a run of `c` of length `k`, then `r`, then a run of `c`. */
  predicate TrimmedAt(s: string, r: string, k: nat, c: char) {
    && k + |r| <= |s| && s[k..k + |r|] == r
    && (forall i :: 0 <= i < k ==> s[i] == c)
    && (forall i :: k + |r| <= i < |s| ==> s[i] == c)
  }

  /** If `s` is a run of `c`, then `r`, then a run of `c`, and `r` neither starts nor ends with `c`, trimming gives `r`. */
  lemma {:induction false} TrimUnique(a: string, r: string, b: string, c: char)
    requires AllChar(a, c) && AllChar(b, c)
    requires r == [] || (r[0] != c && r[|r| - 1] != c)
    ensures Trim(a + r + b, c) == r
  {
    var s := a + r + b;
    if r == [] {
      assert AllChar(s, c);
      LeadingRunExact(s, c, |s|);
    } else {
      assert s[|a|] == r[0];
      LeadingRunExact(s, c, |a|);
      var l := s[|a|..];
      assert l == r + b;
      assert l[|r| - 1] == r[|r| - 1];
      TrailingRunExact(l, c, |b|);
      assert l[..|r|] == r;
    }
  }

  /** The leading run is exactly `k` long when the first `k` characters are `c` and the next is not. */
  lemma {:induction false} LeadingRunExact(s: string, c: char, k: nat)
    requires k <= |s|
    requires forall i :: 0 <= i < k ==> s[i] == c
    requires k < |s| ==> s[k] != c
    ensures LeadingRun(s, c) == k
    decreases k
  {
    if k > 0 {
      LeadingRunExact(s[1..], c, k - 1);
    }
  }

  lemma {:induction false} TrailingRunExact(s: string, c: char, k: nat)
    requires k <= |s|
    requires forall i :: |s| - k <= i < |s| ==> s[i] == c
    requires k < |s| ==> s[|s| - k - 1] != c
    ensures TrailingRun(s, c) == k
    decreases k
  {
    if k > 0 {
      TrailingRunExact(s[..|s| - 1], c, k - 1);
    }
  }

  /** Trimming ignores any extra run of `c` added on either side. */
  lemma TrimPadded(w: string, c: char, i: nat, j: nat)
    ensures Trim(Repeat(c, i) + w + Repeat(c, j), c) == Trim(w, c)
  {
    var r := Trim(w, c);
    var k: nat :| TrimmedAt(w, r, k, c);
    var a := w[..k];
    var b := w[k + |r|..];
    TrimmedSplit(w, r, k, c);
    AllCharAppend(Repeat(c, i), a, c);
    AllCharAppend(b, Repeat(c, j), c);
    TrimUnique(Repeat(c, i) + a, r, b + Repeat(c, j), c);
    Regroup(Repeat(c, i), a, r, b, Repeat(c, j));
  }

  /** The three parts of a string that TrimmedAt describes. */
  lemma TrimmedSplit(w: string, r: string, k: nat, c: char)
    requires TrimmedAt(w, r, k, c)
    ensures w == w[..k] + r + w[k + |r|..]
    ensures AllChar(w[..k], c) && AllChar(w[k + |r|..], c)
  {
    assert w == w[..k] + w[k..k + |r|] + w[k + |r|..];
  }

  lemma AllCharAppend(x: string, y: string, c: char)
    requires AllChar(x, c) && AllChar(y, c)
    ensures AllChar(x + y, c)
  {
  }

  lemma Regroup(p: string, a: string, r: string, b: string, q: string)
    ensures p + (a + r + b) + q == (p + a) + r + (b + q)
  {
  }

  /** ASCII upper case letters mapped to lower case; everything else unchanged. */
  function LowerAscii(ch: char): char {
    if 'A' <= ch <= 'Z' then (ch as int + 32) as char else ch
  }

  predicate IsAsciiLetter(ch: char) {
    'A' <= ch <= 'Z' || 'a' <= ch <= 'z'
  }

  /** strings.EqualFold, restricted to ASCII case folding. */
  predicate EqualFold(a: string, b: string) {
    |a| == |b| && forall i :: 0 <= i < |a| ==> LowerAscii(a[i]) == LowerAscii(b[i])
  }

  /** Against a string with no letters, case-insensitive equality is plain equality. */
  lemma EqualFoldWithoutLetters(a: string, b: string)
    requires forall i :: 0 <= i < |b| ==> !IsAsciiLetter(b[i])
    ensures EqualFold(a, b) <==> a == b
  {
    if EqualFold(a, b) {
      forall i | 0 <= i < |a|
        ensures a[i] == b[i]
      {
        assert LowerAscii(a[i]) == LowerAscii(b[i]);
      }
    }
  }
}

=== FILE: mongo_ops.dfy ===
/**
 * What the MongoDB plugin does with one client request: the opcode picks a
 * layout (the list of fields read from the body, in order) and decides
 * whether a trace line is written. Documents are kept as their raw bytes;
 * rendering them as JSON is not modelled.
 */
module MongoOps {
  import opened Wrappers
  import opened Plugin
  import opened MongoWire

  /** Opcodes of the MongoDB Wire Protocol the client path dispatches on. */
  const OP_UPDATE := 2001
  const OP_INSERT := 2002
  const OP_QUERY := 2004
  const OP_GET_MORE := 2005
  const OP_DELETE := 2006
  const OP_COMMAND := 2010
  const OP_MSG := 2013

  /** OP_MSG section kinds. */
  const MsgKindBody := 0
  const MsgKindDocumentSequence := 1

  const Two31: int := 0x8000_0000
  const Two63: int := 0x8000_0000_0000_0000
  const Two64: int := 0x1_0000_0000_0000_0000

  /** The field readers: ReadInt32, ReadInt64, ReadByte, ReadString, ReadBson2Json. */
  datatype FieldKind = Int32 | Int64 | OneByte | CString | Document

  /** A value read from a body; a document is its raw length-prefixed bytes. */
  datatype Field = I32(i: int) | I64(i: int) | B(b: Byte) | Str(s: seq<Byte>) | Doc(bytes: seq<Byte>)

  function KindOf(f: Field): FieldKind {
    match f
    case I32(_) => Int32
    case I64(_) => Int64
    case B(_) => OneByte
    case Str(_) => CString
    case Doc(_) => Document
  }

  /** Two's complement reading of a 32-bit word. */
  function Signed32(u: nat): (i: int)
    requires u < Two32
    ensures -Two31 <= i < Two31
  {
    if u >= Two31 then u - Two32 else u
  }

  function Signed64(u: nat): (i: int)
    requires u < Two64
    ensures -Two63 <= i < Two63
  {
    if u >= Two63 then u - Two64 else u
  }

  /** Index of the first zero byte, or |r| when there is none. */
  function NulAt(r: seq<Byte>): (k: nat)
    ensures k <= |r|
    ensures forall j :: 0 <= j < k ==> r[j] != 0
    ensures k < |r| ==> r[k] == 0
  {
    if |r| == 0 || r[0] == 0 then 0 else 1 + NulAt(r[1..])
  }

  datatype FieldRead = FieldRead(field: Field, rest: seq<Byte>)

  /**
   * The bytes left cannot hold a field of kind `k`: too few for an integer
   * or a byte, no terminating zero for a C string, or a document whose
   * length prefix is missing or does not fit.
   */
  predicate RunsOut(k: FieldKind, r: seq<Byte>) {
    match k
    case Int32 => |r| < 4
    case Int64 => |r| < 8
    case OneByte => |r| == 0
    case CString => NulAt(r) == |r|
    case Document => |r| < 4 || !(4 <= Signed32(LE32(r[..4])) <= |r|)
  }

  /**
   * One field read from the front of `r`; None when the body ends first
   * (or, for a document, when its length prefix does not fit the bytes left).
   */
  function ReadField(k: FieldKind, r: seq<Byte>): (res: Option<FieldRead>)
    ensures res.Some? ==> KindOf(res.value.field) == k
    ensures res.Some? ==> |res.value.rest| < |r| && IsSuffix(res.value.rest, r)
    ensures res.None? <==> RunsOut(k, r)
  {
    match k
    case Int32 =>
      if |r| < 4 then None else Some(FieldRead(I32(Signed32(LE32(r[..4]))), r[4..]))
    case Int64 =>
      if |r| < 8 then None
      else Some(FieldRead(I64(Signed64(LE32(r[..4]) + Two32 * LE32(r[4..8]))), r[8..]))
    case OneByte =>
      if |r| < 1 then None else Some(FieldRead(B(r[0]), r[1..]))
    case CString =>
      var n := NulAt(r);
      if n == |r| then None else Some(FieldRead(Str(r[..n]), r[n + 1..]))
    case Document =>
      if |r| < 4 then None
      else
        var len := Signed32(LE32(r[..4]));
        if len < 4 || len > |r| then None else Some(FieldRead(Doc(r[..len]), r[len..]))
  }

  datatype FieldsRead = FieldsRead(fields: seq<Field>, rest: seq<Byte>)

  /** The fields of a layout read in order; None as soon as one read fails. */
  function ReadFields(kinds: seq<FieldKind>, r: seq<Byte>): (res: Option<FieldsRead>)
    ensures res.Some? ==> |res.value.fields| == |kinds|
    ensures res.Some? ==> forall i :: 0 <= i < |kinds| ==> KindOf(res.value.fields[i]) == kinds[i]
    ensures res.Some? ==> IsSuffix(res.value.rest, r)
    decreases |kinds|
  {
    if |kinds| == 0 then Some(FieldsRead([], r))
    else
      match ReadField(kinds[0], r)
      case None => None
      case Some(first) =>
        match ReadFields(kinds[1..], first.rest)
        case None => None
        case Some(more) =>
          SuffixOfSuffix(r, first.rest, more.rest);
          Some(FieldsRead([first.field] + more.fields, more.rest))
  }

  /** `b` is what is left of `r` once a prefix has been read off. */
  predicate IsSuffix(b: seq<Byte>, r: seq<Byte>) {
    |b| <= |r| && b == r[|r| - |b|..]
  }

  /** A suffix of a suffix of `r` is a suffix of `r`. */
  lemma SuffixOfSuffix(r: seq<Byte>, a: seq<Byte>, b: seq<Byte>)
    requires IsSuffix(a, r) && IsSuffix(b, a)
    ensures IsSuffix(b, r)
  {
    forall k | 0 <= k < |b|
      ensures b[k] == r[|r| - |b| + k]
    {
      assert b[k] == a[|a| - |b| + k];
    }
  }

  /** What the client path records for a request (besides the timestamp and addresses). */
  datatype Label = Update | Insert | Query | Command | GetMore | Delete | MsgBody | MsgSequence

  /** Fields read for each kind of request, in order. */
  function Layout(l: Label): seq<FieldKind> {
    match l
    case Update => [Int32, CString, Int32, Document, Document]
    case Insert => [Int32, CString, Document]
    case Query => [Int32, CString, Int32, Int32, Document, Document]
    case Command => [CString, CString, Document, Document, Document]
    case GetMore => [Int32, CString, Int32, Int64]
    case Delete => [Int32, CString, Int32, Document]
    case MsgBody => [Int32, OneByte, Document]
    case MsgSequence => [Int32, OneByte]
  }

  /** Positions in the layout of the fields the trace line shows. */
  function Shown(l: Label): (idx: seq<nat>)
    ensures forall k :: 0 <= k < |idx| ==> idx[k] < |Layout(l)|
  {
    match l
    case Update => [1, 3, 4]
    case Insert => [1, 2]
    case Query => [1, 4, 5]
    case Command => [0, 1, 2, 3, 4]
    case GetMore => [1, 2, 3]
    case Delete => [1, 3]
    case MsgBody => [2]
    case MsgSequence => []
  }

  /** The label of each opcode other than OP_MSG that has a case in the switch. */
  function OpLabel(op: nat): Option<Label> {
    if op == OP_UPDATE then Some(Update)
    else if op == OP_INSERT then Some(Insert)
    else if op == OP_QUERY then Some(Query)
    else if op == OP_COMMAND then Some(Command)
    else if op == OP_GET_MORE then Some(GetMore)
    else if op == OP_DELETE then Some(Delete)
    else None
  }

  function OpCodeOf(l: Label): nat {
    match l
    case Update => OP_UPDATE
    case Insert => OP_INSERT
    case Query => OP_QUERY
    case Command => OP_COMMAND
    case GetMore => OP_GET_MORE
    case Delete => OP_DELETE
    case MsgBody => OP_MSG
    case MsgSequence => OP_MSG
  }

  /** The fields at the given positions. */
  function Pick(fs: seq<Field>, idx: seq<nat>): (r: seq<Field>)
    requires forall k :: 0 <= k < |idx| ==> idx[k] < |fs|
    ensures |r| == |idx| && forall k :: 0 <= k < |idx| ==> r[k] == fs[idx[k]]
  {
    seq(|idx|, k requires 0 <= k < |idx| => fs[idx[k]])
  }

  /**
   * What handling one unit produces: a trace line with the shown fields, the
   * "Unknown message kind" notice (no trace line), a message abandoned on a
   * short read, or nothing.
   */
  datatype Outcome = Trace(request: Label, shown: seq<Field>) | KindNotice(kind: Byte) | Abandoned | Silent

  /** resolveClientPacket: the opcode switch and the OP_MSG kind switch. */
  function ResolveClientPacket(opCode: nat, payload: seq<Byte>): (r: Outcome)
    ensures opCode != OP_MSG && OpLabel(opCode).None? ==> r == Silent
    ensures r.Trace? && opCode != OP_MSG ==> OpLabel(opCode) == Some(r.request)
    ensures r.Trace? && opCode == OP_MSG ==> r.request == MsgBody || r.request == MsgSequence
    ensures r.Trace? ==> |r.shown| == |Shown(r.request)|
                         && forall k :: 0 <= k < |r.shown| ==> KindOf(r.shown[k]) == Layout(r.request)[Shown(r.request)[k]]
    ensures r.KindNotice? ==> opCode == OP_MSG && |payload| >= 5 && payload[4] == r.kind
                              && r.kind != MsgKindBody && r.kind != MsgKindDocumentSequence
    ensures r == Silent <==> opCode != OP_MSG && OpLabel(opCode).None?
    ensures opCode != OP_MSG && OpLabel(opCode).Some? ==>
              (r.Abandoned? <==> ReadFields(Layout(OpLabel(opCode).value), payload).None?)
    ensures opCode == OP_MSG ==> (r.Abandoned? <==> |payload| < 5 || ResolveSection(payload[4], payload[5..]).Abandoned?)
  {
    if opCode == OP_MSG then ResolveMsg(payload)
    else
      match OpLabel(opCode)
      case None => Silent
      case Some(l) => ResolveFixed(l, payload)
  }

  /** The OP_MSG case: flags, then the section kind decides. */
  function ResolveMsg(payload: seq<Byte>): (r: Outcome)
    ensures r.Trace? ==> (r.request == MsgBody || r.request == MsgSequence) && |r.shown| == |Shown(r.request)|
                         && forall k :: 0 <= k < |r.shown| ==> KindOf(r.shown[k]) == Layout(r.request)[Shown(r.request)[k]]
    ensures r.KindNotice? ==> |payload| >= 5 && payload[4] == r.kind
                              && r.kind != MsgKindBody && r.kind != MsgKindDocumentSequence
    ensures !r.Silent?
    ensures r.Abandoned? <==> |payload| < 5 || ResolveSection(payload[4], payload[5..]).Abandoned?
  {
    MsgHeadFields(payload);
    match ReadFields([Int32, OneByte], payload)
    case None => Abandoned
    case Some(head) => ResolveSection(head.fields[1].b, head.rest)
  }

  /**
   * The section after the flags: kind 0 traces its document, kind 1 traces
   * the bare label, any other kind prints the notice.
   */
  function ResolveSection(kind: Byte, rest: seq<Byte>): (r: Outcome)
    ensures r.Trace? ==> (r.request == MsgBody || r.request == MsgSequence) && |r.shown| == |Shown(r.request)|
                         && forall k :: 0 <= k < |r.shown| ==> KindOf(r.shown[k]) == Layout(r.request)[Shown(r.request)[k]]
    ensures r.Trace? && r.request == MsgBody <==> kind == MsgKindBody && |rest| >= 4 && 4 <= Signed32(LE32(rest[..4])) <= |rest|
    ensures r == Abandoned <==> kind == MsgKindBody && !(|rest| >= 4 && 4 <= Signed32(LE32(rest[..4])) <= |rest|)
    ensures r == Trace(MsgSequence, []) <==> kind == MsgKindDocumentSequence
    ensures r.KindNotice? <==> kind != MsgKindBody && kind != MsgKindDocumentSequence
    ensures r.KindNotice? ==> r.kind == kind
    ensures !r.Silent?
  {
    if kind == MsgKindBody then
      match ReadFields([Document], rest)
      case None => Abandoned
      case Some(doc) => Trace(MsgBody, doc.fields)
    else if kind == MsgKindDocumentSequence then Trace(MsgSequence, [])
    else KindNotice(kind)
  }

  /** The flags and kind of an OP_MSG are its first five bytes: the kind is the fifth. */
  lemma MsgHeadFields(payload: seq<Byte>)
    ensures ReadFields([Int32, OneByte], payload).Some? <==> |payload| >= 5
    ensures ReadFields([Int32, OneByte], payload).Some? ==>
              ReadFields([Int32, OneByte], payload).value.fields[1] == B(payload[4])
  {
    if |payload| >= 4 {
      var after := payload[4..];
      assert ReadField(Int32, payload).value.rest == after;
      assert [Int32, OneByte][1..] == [OneByte];
      assert [OneByte][1..] == [];
      if |after| >= 1 {
        assert ReadFields([OneByte], after).value.fields == [B(after[0])];
      }
    }
  }

  /** A request with a fixed layout: read every field, then show the chosen ones. */
  function ResolveFixed(l: Label, payload: seq<Byte>): (r: Outcome)
    ensures r.Trace? || r.Abandoned?
    ensures r.Abandoned? <==> ReadFields(Layout(l), payload).None?
    ensures r.Trace? ==> r.request == l && |r.shown| == |Shown(l)|
                         && forall k :: 0 <= k < |r.shown| ==> KindOf(r.shown[k]) == Layout(l)[Shown(l)[k]]
  {
    match ReadFields(Layout(l), payload)
    case None => Abandoned
    case Some(body) => Trace(l, Pick(body.fields, Shown(l)))
  }

  /** stream.resolve: client units go to resolveClientPacket; resolveServerPacket does nothing. */
  function ResolvePacket(pk: Packet): (r: Outcome)
    ensures !pk.isClientFlow ==> r == Silent
    ensures pk.isClientFlow && pk.opCode != OP_MSG && OpLabel(pk.opCode).None? ==> r == Silent
  {
    if pk.isClientFlow then ResolveClientPacket(pk.opCode, pk.payload) else Silent
  }

  // ---------------------------------------------------------------- encoding

  /** A field value that fits its wire form (and, for a string, has no zero byte). */
  predicate Encodable(f: Field) {
    match f
    case I32(i) => -Two31 <= i < Two31
    case I64(i) => -Two63 <= i < Two63
    case B(_) => true
    case Str(s) => forall j :: 0 <= j < |s| ==> s[j] != 0
    case Doc(d) => 4 <= |d| < Two31 && d[..4] == LE32Bytes(|d|)
  }

  function EncodeField(f: Field): (b: seq<Byte>)
    requires Encodable(f)
    ensures |b| >= 1
  {
    match f
    case I32(i) => LE32Bytes(if i < 0 then i + Two32 else i)
    case I64(i) =>
      var u := if i < 0 then i + Two64 else i;
      LE32Bytes(u % Two32) + LE32Bytes(u / Two32)
    case B(x) => [x]
    case Str(s) => s + [0]
    case Doc(d) => d
  }

  predicate AllEncodable(fs: seq<Field>) {
    forall k :: 0 <= k < |fs| ==> Encodable(fs[k])
  }

  function EncodeFields(fs: seq<Field>): seq<Byte>
    requires AllEncodable(fs)
  {
    if |fs| == 0 then [] else EncodeField(fs[0]) + EncodeFields(fs[1..])
  }

  function KindsOf(fs: seq<Field>): (ks: seq<FieldKind>)
    ensures |ks| == |fs| && forall k :: 0 <= k < |fs| ==> ks[k] == KindOf(fs[k])
  {
    seq(|fs|, k requires 0 <= k < |fs| => KindOf(fs[k]))
  }

  /** Reading a field back from its wire form gives the field and leaves what follows. */
  lemma ReadEncodedField(f: Field, rest: seq<Byte>)
    requires Encodable(f)
    ensures ReadField(KindOf(f), EncodeField(f) + rest) == Some(FieldRead(f, rest))
  {
    var r := EncodeField(f) + rest;
    match f
    case I32(i) =>
      assert r[..4] == EncodeField(f);
    case I64(i) => ReadEncodedInt64(i, rest);
    case B(x) =>
    case Str(s) => ReadEncodedString(s, rest);
    case Doc(d) =>
      assert r[..4] == d[..4];
      assert r[..|d|] == d;
  }

  lemma ReadEncodedInt64(i: int, rest: seq<Byte>)
    requires Encodable(I64(i))
    ensures ReadField(Int64, EncodeField(I64(i)) + rest) == Some(FieldRead(I64(i), rest))
  {
    var r := EncodeField(I64(i)) + rest;
    var u := if i < 0 then i + Two64 else i;
    assert r[..4] == LE32Bytes(u % Two32);
    assert r[4..8] == LE32Bytes(u / Two32);
    assert r[8..] == rest;
  }

  lemma ReadEncodedString(s: seq<Byte>, rest: seq<Byte>)
    requires Encodable(Str(s))
    ensures ReadField(CString, EncodeField(Str(s)) + rest) == Some(FieldRead(Str(s), rest))
  {
    var r := EncodeField(Str(s)) + rest;
    NulAtEncoded(s, rest);
    assert r[..|s|] == s;
    assert r[|s| + 1..] == rest;
  }

  lemma NulAtEncoded(s: seq<Byte>, rest: seq<Byte>)
    requires forall j :: 0 <= j < |s| ==> s[j] != 0
    ensures NulAt(s + [0] + rest) == |s|
  {
    var r := s + [0] + rest;
    assert r[|s|] == 0;
    NulAtExact(r, |s|);
  }

  lemma {:induction false} NulAtExact(r: seq<Byte>, k: nat)
    requires k < |r| && r[k] == 0 && forall j :: 0 <= j < k ==> r[j] != 0
    ensures NulAt(r) == k
    decreases k
  {
    if k > 0 {
      NulAtExact(r[1..], k - 1);
    }
  }

  /** Reading a layout back from the encoded fields gives exactly those fields. */
  lemma {:induction false} ReadEncodedFields(fs: seq<Field>, rest: seq<Byte>)
    requires AllEncodable(fs)
    ensures ReadFields(KindsOf(fs), EncodeFields(fs) + rest) == Some(FieldsRead(fs, rest))
    decreases |fs|
  {
    var kinds := KindsOf(fs);
    if |fs| > 0 {
      var tail := EncodeFields(fs[1..]) + rest;
      var r := EncodeFields(fs) + rest;
      assert ReadField(kinds[0], r) == Some(FieldRead(fs[0], tail)) by {
        assert r == EncodeField(fs[0]) + tail;
        ReadEncodedField(fs[0], tail);
        assert kinds[0] == KindOf(fs[0]);
      }
      assert ReadFields(kinds[1..], tail) == Some(FieldsRead(fs[1..], rest)) by {
        assert kinds[1..] == KindsOf(fs[1..]);
        ReadEncodedFields(fs[1..], rest);
      }
      assert [fs[0]] + fs[1..] == fs;
    } else {
      assert EncodeFields(fs) + rest == rest;
      assert kinds == [];
    }
  }

  lemma AllEncodableAppend(a: seq<Field>, b: seq<Field>)
    requires AllEncodable(a) && AllEncodable(b)
    ensures AllEncodable(a + b)
  {
  }

  lemma {:induction false} EncodeFieldsAppend(a: seq<Field>, b: seq<Field>)
    requires AllEncodable(a) && AllEncodable(b)
    ensures AllEncodable(a + b)
    ensures EncodeFields(a + b) == EncodeFields(a) + EncodeFields(b)
    decreases |a|
  {
    AllEncodableAppend(a, b);
    if |a| == 0 {
      assert a + b == b;
    } else {
      var ab := a + b;
      assert ab[0] == a[0] && ab[1..] == a[1..] + b;
      EncodeFieldsAppend(a[1..], b);
    }
  }

  /**
   * A request of a fixed layout (every opcode but OP_MSG) whose body holds
   * its fields is traced with exactly the shown fields, whatever follows them.
   */
  lemma TraceOfRequest(l: Label, fs: seq<Field>, extra: seq<Byte>)
    requires l != MsgBody && l != MsgSequence
    requires KindsOf(fs) == Layout(l)
    requires AllEncodable(fs)
    ensures ResolveClientPacket(OpCodeOf(l), EncodeFields(fs) + extra) == Trace(l, Pick(fs, Shown(l)))
  {
    assert OpCodeOf(l) != OP_MSG && OpLabel(OpCodeOf(l)) == Some(l);
    assert ReadFields(Layout(l), EncodeFields(fs) + extra) == Some(FieldsRead(fs, extra)) by {
      ReadEncodedFields(fs, extra);
    }
  }

  /** Reading the OP_MSG flags and kind back from their wire form. */
  lemma ReadMsgHead(flags: int, kind: Byte, after: seq<Byte>)
    requires Encodable(I32(flags))
    ensures ReadFields([Int32, OneByte], EncodeFields([I32(flags), B(kind)]) + after)
            == Some(FieldsRead([I32(flags), B(kind)], after))
  {
    assert KindsOf([I32(flags), B(kind)]) == [Int32, OneByte];
    ReadEncodedFields([I32(flags), B(kind)], after);
  }

  /** An OP_MSG body section is traced with its document. */
  lemma TraceOfMsgBody(flags: int, doc: seq<Byte>, extra: seq<Byte>)
    requires Encodable(I32(flags)) && Encodable(Doc(doc))
    ensures ResolveClientPacket(OP_MSG, EncodeFields([I32(flags), B(MsgKindBody), Doc(doc)]) + extra)
            == Trace(MsgBody, [Doc(doc)])
  {
    var after := EncodeFields([Doc(doc)]) + extra;
    MsgBodyBytes(flags, doc, extra);
    ReadMsgHead(flags, MsgKindBody, after);
    assert ReadFields([Document], after) == Some(FieldsRead([Doc(doc)], extra)) by {
      assert KindsOf([Doc(doc)]) == [Document];
      ReadEncodedFields([Doc(doc)], extra);
    }
  }

  /** The wire form of a body section is its flags and kind, then its document. */
  lemma MsgBodyBytes(flags: int, doc: seq<Byte>, extra: seq<Byte>)
    requires Encodable(I32(flags)) && Encodable(Doc(doc))
    ensures EncodeFields([I32(flags), B(MsgKindBody), Doc(doc)]) + extra
            == EncodeFields([I32(flags), B(MsgKindBody)]) + (EncodeFields([Doc(doc)]) + extra)
  {
    var head := [I32(flags), B(MsgKindBody)];
    EncodeFieldsAppend(head, [Doc(doc)]);
    assert head + [Doc(doc)] == [I32(flags), B(MsgKindBody), Doc(doc)];
  }

  /** An OP_MSG document sequence still gives the header-only trace line, without reading further. */
  lemma TraceOfMsgSequence(flags: int, extra: seq<Byte>)
    requires Encodable(I32(flags))
    ensures ResolveClientPacket(OP_MSG, EncodeFields([I32(flags), B(MsgKindDocumentSequence)]) + extra)
            == Trace(MsgSequence, [])
  {
    ReadMsgHead(flags, MsgKindDocumentSequence, extra);
  }

  /** Any other OP_MSG kind gives only the notice, never a trace line. */
  lemma NoTraceForUnknownKind(flags: int, kind: Byte, extra: seq<Byte>)
    requires Encodable(I32(flags)) && kind != MsgKindBody && kind != MsgKindDocumentSequence
    ensures ResolveClientPacket(OP_MSG, EncodeFields([I32(flags), B(kind)]) + extra) == KindNotice(kind)
  {
    ReadMsgHead(flags, kind, extra);
  }
}

=== FILE: mongo_wire.dfy ===
/**
 * Framing of the MongoDB plugin: the 16-byte standard message header of the
 * MongoDB Wire Protocol (messageLength, requestID, responseTo, opCode, each a
 * little-endian 32-bit integer) and the body copied after it.
 */
module MongoWire {
  import opened Plugin

  const HeaderSize := 16
  const Two32: int := 0x1_0000_0000

  /** binary.LittleEndian.Uint32 */
  function LE32(b: seq<Byte>): (v: nat)
    requires |b| == 4
    ensures v < Two32
  {
    b[0] as int + 256 * b[1] as int + 65536 * b[2] as int + 16777216 * b[3] as int
  }

  /** binary.LittleEndian.PutUint32 */
  function LE32Bytes(v: nat): (b: seq<Byte>)
    requires v < Two32
    ensures |b| == 4 && LE32(b) == v
  {
    var b := [v % 256, (v / 256) % 256, (v / 65536) % 256, v / 16777216];
    assert LE32(b) == v by {
      DivModBytes(v);
    }
    b
  }

  lemma DivModBytes(v: nat)
    requires v < Two32
    ensures v % 256 + 256 * ((v / 256) % 256) + 65536 * ((v / 65536) % 256) + 16777216 * (v / 16777216) == v
  {
    var q1 := v / 256;
    var q2 := q1 / 256;
    var q3 := q2 / 256;
    assert v == v % 256 + 256 * q1;
    assert q1 == q1 % 256 + 256 * q2;
    assert q2 == q2 % 256 + 256 * q3;
    assert v / 65536 == q2;
    assert v / 16777216 == q3;
  }

  /**
   * The body length readStream derives from the declared total length: a
   * uint32 subtraction of the header size, so a declared length below 16
   * wraps around to a value near 2^32.
   */
  function BodyLength(declared: nat): (n: nat)
    requires declared < Two32
    ensures n < Two32
    ensures declared >= HeaderSize ==> n == declared - HeaderSize
    ensures declared < HeaderSize ==> n == declared + Two32 - HeaderSize
  {
    (declared - HeaderSize) % Two32
  }

  /**
   * One unit read by the plugin: direction, the flow it was read from, the
   * four header fields as the reader stores them, and the copied body.
   */
  datatype Packet = Packet(
    isClientFlow: bool,
    tmpNet: Flow,
    tmpTransport: Flow,
    messageLength: nat,
    requestID: int,
    responseTo: int,
    opCode: nat,
    payload: seq<Byte>)

  /** io.ReadFull's two failures on a short header: nothing at all, or some but not 16 bytes. */
  datatype ReadError = Eof | UnexpectedEof

  datatype ReadOutcome = Frame(packet: Packet, rest: seq<Byte>) | Stop(err: ReadError)

  /**
   * readStream: read the 16-byte header, take the body length as the 32-bit
   * unsigned difference messageLength - 16, and copy up to that many bytes
   * (io.CopyN, whose error is ignored). requestID and responseTo are never
   * filled in and keep Go's zero value; the direction is left false for
   * newPacket to set.
   */
  function ReadStream(net: Flow, transport: Flow, r: seq<Byte>): (res: ReadOutcome)
    ensures |r| == 0 <==> res == Stop(Eof)
    ensures 0 < |r| < HeaderSize <==> res == Stop(UnexpectedEof)
    ensures res.Frame? ==>
      var p := res.packet;
      && |r| >= HeaderSize
      && p.messageLength == BodyLength(LE32(r[0..4]))
      && p.opCode == LE32(r[12..16])
      && p.requestID == 0 && p.responseTo == 0
      && p.tmpNet == net && p.tmpTransport == transport
      && |p.payload| <= p.messageLength
      && (|p.payload| < p.messageLength ==> res.rest == [])
      && r == r[..HeaderSize] + p.payload + res.rest
  {
    if |r| < HeaderSize then Stop(if |r| == 0 then Eof else UnexpectedEof)
    else
      var header := r[..HeaderSize];
      var length := BodyLength(LE32(header[0..4]));
      var body := r[HeaderSize..];
      var copied := if length != 0 then (if length <= |body| then body[..length] else body) else [];
      assert r == header + copied + body[|copied|..];
      Frame(Packet(false, net, transport, length, 0, 0, LE32(header[12..16]), copied), body[|copied|..])
  }

  /** A header and body as a client would send them. */
  datatype Message = Message(requestID: nat, responseTo: nat, opCode: nat, body: seq<Byte>)

  predicate WellSized(m: Message) {
    m.requestID < Two32 && m.responseTo < Two32 && m.opCode < Two32 && HeaderSize + |m.body| < Two32
  }

  /** The wire form of a message, its declared length counting the header. */
  function Encode(m: Message): (b: seq<Byte>)
    requires WellSized(m)
    ensures |b| == HeaderSize + |m.body|
  {
    LE32Bytes(HeaderSize + |m.body|) + LE32Bytes(m.requestID) + LE32Bytes(m.responseTo) + LE32Bytes(m.opCode) + m.body
  }

  /**
   * Reading a well-formed message yields its opCode and exactly its body,
   * leaves what follows untouched, and drops requestID and responseTo.
   */
  lemma ReadEncoded(net: Flow, transport: Flow, m: Message, rest: seq<Byte>)
    requires WellSized(m)
    ensures ReadStream(net, transport, Encode(m) + rest)
            == Frame(Packet(false, net, transport, |m.body|, 0, 0, m.opCode, m.body), rest)
  {
    var r := Encode(m) + rest;
    var h := LE32Bytes(HeaderSize + |m.body|) + LE32Bytes(m.requestID) + LE32Bytes(m.responseTo) + LE32Bytes(m.opCode);
    var header := r[..HeaderSize];
    assert header == h && r[HeaderSize..] == m.body + rest by {
      assert r == h + (m.body + rest);
    }
    assert LE32(header[0..4]) == HeaderSize + |m.body| by {
      assert h[0..4] == LE32Bytes(HeaderSize + |m.body|);
    }
    assert LE32(header[12..16]) == m.opCode by {
      assert h[12..16] == LE32Bytes(m.opCode);
    }
    assert (m.body + rest)[..|m.body|] == m.body;
    assert (m.body + rest)[|m.body|..] == rest;
  }

  /**
   * A declared length below 16 wraps to at least 2^32 - 16, so the copy
   * swallows everything after the header of any stream shorter than that.
   */
  lemma ShortLengthSwallowsStream(net: Flow, transport: Flow, r: seq<Byte>)
    requires |r| >= HeaderSize && LE32(r[0..4]) < HeaderSize
    requires |r| <= Two32
    ensures var res := ReadStream(net, transport, r);
            && res.Frame? && res.packet.messageLength >= Two32 - HeaderSize
            && res.packet.payload == r[HeaderSize..] && res.rest == []
  {
  }
}

=== FILE: mongodb.dfy ===
/**
 * The MongoDB plugin object: its configuration (SetFlag, BPFFilter,
 * Version), newPacket's direction test, and ResolveStream's registry step
 * and read loop. The per-stream goroutine and its channel are replaced by
 * the sequence of units in the order they are queued.
 */
module Mongodb {
  import opened Wrappers
  import opened GoStrings
  import opened Strconv
  import opened Plugin
  import opened Registry
  import opened MongoWire
  import opened MongoOps

  const DefaultPort := 27017
  const DefaultVersion := "0.1"

  /** The plugin instance: configured port, version string, and the per-flow stream table. */
  datatype Mongodb = Mongodb(port: int, version: string, source: Table)

  /** NewInstance: the global instance, made with the defaults on first use. */
  function NewInstance(global: Option<Mongodb>): (m: Mongodb)
    ensures global.Some? ==> m == global.value
    ensures global.None? ==> m.port == DefaultPort && m.version == DefaultVersion && m.source == map[]
  {
    match global
    case Some(g) => g
    case None => Mongodb(DefaultPort, DefaultVersion, map[])
  }

  /**
   * SetFlag: an empty list keeps the port; any length whose half is not 1
   * panics; the pair loop checks the parse error before storing the port,
   * and stores it before the range check.
   */
  function SetFlag(port: int, flg: seq<string>): (r: FlagOutcome)
    ensures !r.Exited?
    ensures |flg| == 0 ==> r == Configured(port)
    ensures |flg| != 0 && |flg| != 2 && |flg| != 3 ==> r == Panicked(port, ParamCount)
    ensures |flg| == 3 ==> r.Panicked?
    ensures r.Configured? <==> |flg| == 0 || (|flg| == 2 && PortPair(flg, 0))
    ensures r.Configured? && |flg| == 2 ==> r.port == AtoiValue(Atoi(flg[1]))
    ensures (|flg| == 2 || |flg| == 3) && flg[0] != CmdPort ==> r == Panicked(port, UnknownKey)
    ensures (|flg| == 2 || |flg| == 3) && flg[0] == CmdPort && !Atoi(flg[1]).Num? ==>
              r == Panicked(port, PortSyntax)
    ensures (|flg| == 2 || |flg| == 3) && flg[0] == CmdPort && Atoi(flg[1]).Num? && !ValidPort(Atoi(flg[1]).n) ==>
              r == Panicked(Atoi(flg[1]).n, PortRange)
    ensures |flg| == 3 && PortPair(flg, 0) ==> r == Panicked(Atoi(flg[1]).n, ParamIndex)
  {
    var c := |flg|;
    if c == 0 then Configured(port)
    else if c / 2 != 1 then Panicked(port, ParamCount)
    else
      assert c == 2 ==> (PortPairsFrom(flg, 0) <==> PortPair(flg, 0));
      ApplyPairsSkipsValid(flg, 0, if c == 3 && PortPair(flg, 0) then 2 else 0, port, CheckThenStore);
      ApplyPairs(flg, 0, port, CheckThenStore)
  }

  /** The capture filter for the instance's own port. */
  function BPFFilter(m: Mongodb): (f: string)
    ensures HasPrefix(f, FilterPrefix) && f[|FilterPrefix|..] == Itoa(m.port)
  {
    FilterFor(m.port)
  }

  function Version(m: Mongodb): (v: string)
    ensures v == m.version
  {
    m.version
  }

  /** A unit read from the stream and the bytes left after it. */
  datatype Next = Next(packet: Packet, rest: seq<Byte>)

  /**
   * newPacket: nil on end of stream and on a short header alike; otherwise
   * the unit read, marked client-to-server unless its source port prints as
   * the configured port.
   */
  function NewPacket(port: int, net: Flow, transport: Flow, r: seq<Byte>): (n: Option<Next>)
    ensures n.None? <==> |r| < HeaderSize
    ensures n.Some? ==> n.value.packet.isClientFlow == !FromServer(transport, port)
    ensures n.Some? ==> |n.value.rest| + HeaderSize + |n.value.packet.payload| == |r|
    ensures n.Some? ==> IsSuffix(n.value.rest, r)
    ensures n.Some? ==>
      var p := n.value.packet;
      && p.messageLength == BodyLength(LE32(r[0..4]))
      && p.opCode == LE32(r[12..16])
      && p.requestID == 0 && p.responseTo == 0
      && p.tmpNet == net && p.tmpTransport == transport
      && |p.payload| <= p.messageLength
      && (|p.payload| < p.messageLength ==> n.value.rest == [])
      && r == r[..HeaderSize] + p.payload + n.value.rest
  {
    match ReadStream(net, transport, r)
    case Stop(_) => None
    case Frame(p, rest) =>
      assert |r| == HeaderSize + |p.payload| + |rest|;
      assert IsSuffix(rest, r) by {
        assert r == r[..HeaderSize] + p.payload + rest;
      }
      Some(Next(p.(isClientFlow := !FromServer(transport, port)), rest))
  }

  /** The read loop of ResolveStream: units in the order they are queued, until newPacket returns nil. */
  function ReadUnits(port: int, net: Flow, transport: Flow, r: seq<Byte>): (ps: seq<Packet>)
    ensures forall i :: 0 <= i < |ps| ==> ps[i].isClientFlow == !FromServer(transport, port)
    decreases |r|
  {
    match NewPacket(port, net, transport, r)
    case None => []
    case Some(n) => [n.packet] + ReadUnits(port, net, transport, n.rest)
  }

  /** What ResolveStream leaves behind: the updated instance, the stream the flow's units went to, and those units. */
  datatype Resolved = Resolved(instance: Mongodb, stream: StreamId, units: seq<Packet>)

  /**
   * ResolveStream: register a stream for `uuid` if there is none yet
   * (numbering it `created`), then queue every unit read from `r` on the
   * flow's stream.
   */
  function ResolveStream(m: Mongodb, uuid: FlowKey, created: StreamId, net: Flow, transport: Flow, r: seq<Byte>): (res: Resolved)
    ensures res.instance.port == m.port && res.instance.version == m.version
    ensures res.instance.source.Keys == m.source.Keys + {uuid}
    ensures forall k :: k in m.source ==> res.instance.source[k] == m.source[k]
    ensures res.stream == res.instance.source[uuid]
    ensures uuid !in m.source ==> res.stream == created
    ensures res.units == ReadUnits(m.port, net, transport, r)
  {
    var table := Register(m.source, uuid, created);
    Resolved(m.(source := table), table[uuid], ReadUnits(m.port, net, transport, r))
  }

  /** The wire form of several messages back to back. */
  function EncodeAll(ms: seq<Message>): seq<Byte>
    requires forall i :: 0 <= i < |ms| ==> WellSized(ms[i])
  {
    if |ms| == 0 then [] else Encode(ms[0]) + EncodeAll(ms[1..])
  }

  /** The unit a message becomes when read in a given direction. */
  function UnitOf(m: Message, isClientFlow: bool, net: Flow, transport: Flow): Packet {
    Packet(isClientFlow, net, transport, |m.body|, 0, 0, m.opCode, m.body)
  }

  function UnitsOf(ms: seq<Message>, isClientFlow: bool, net: Flow, transport: Flow): (ps: seq<Packet>)
    ensures |ps| == |ms|
  {
    if |ms| == 0 then [] else [UnitOf(ms[0], isClientFlow, net, transport)] + UnitsOf(ms[1..], isClientFlow, net, transport)
  }

  lemma ReadUnitsCons(port: int, net: Flow, transport: Flow, m: Message, after: seq<Byte>)
    requires WellSized(m)
    ensures ReadUnits(port, net, transport, Encode(m) + after)
            == [UnitOf(m, !FromServer(transport, port), net, transport)] + ReadUnits(port, net, transport, after)
  {
    ReadEncoded(net, transport, m, after);
    assert NewPacket(port, net, transport, Encode(m) + after)
           == Some(Next(UnitOf(m, !FromServer(transport, port), net, transport), after));
  }

  /**
   * Reading back-to-back messages, followed by fewer than 16 stray bytes,
   * yields one unit per message in order, each with exactly its own body.
   */
  lemma {:induction false} ReadUnitsEncoded(port: int, net: Flow, transport: Flow, ms: seq<Message>, tail: seq<Byte>)
    requires forall i :: 0 <= i < |ms| ==> WellSized(ms[i])
    requires |tail| < HeaderSize
    ensures ReadUnits(port, net, transport, EncodeAll(ms) + tail)
            == UnitsOf(ms, !FromServer(transport, port), net, transport)
    decreases |ms|
  {
    if |ms| == 0 {
      assert EncodeAll(ms) + tail == tail;
    } else {
      ReadUnitsEncoded(port, net, transport, ms[1..], tail);
      ReadUnitsEncodedStep(port, net, transport, ms, tail);
    }
  }

  /** The inductive step: the first message is read as its unit, the rest as before. */
  lemma ReadUnitsEncodedStep(port: int, net: Flow, transport: Flow, ms: seq<Message>, tail: seq<Byte>)
    requires |ms| > 0 && forall i :: 0 <= i < |ms| ==> WellSized(ms[i])
    requires ReadUnits(port, net, transport, EncodeAll(ms[1..]) + tail)
             == UnitsOf(ms[1..], !FromServer(transport, port), net, transport)
    ensures ReadUnits(port, net, transport, EncodeAll(ms) + tail)
            == UnitsOf(ms, !FromServer(transport, port), net, transport)
  {
    var dir := !FromServer(transport, port);
    ReadUnitsHead(port, net, transport, ms, tail);
    assert UnitsOf(ms, dir, net, transport) == [UnitOf(ms[0], dir, net, transport)] + UnitsOf(ms[1..], dir, net, transport);
  }

  /** The first encoded message of a stream is read as its unit. */
  lemma ReadUnitsHead(port: int, net: Flow, transport: Flow, ms: seq<Message>, tail: seq<Byte>)
    requires |ms| > 0 && forall i :: 0 <= i < |ms| ==> WellSized(ms[i])
    ensures ReadUnits(port, net, transport, EncodeAll(ms) + tail)
            == [UnitOf(ms[0], !FromServer(transport, port), net, transport)]
               + ReadUnits(port, net, transport, EncodeAll(ms[1..]) + tail)
  {
    var after := EncodeAll(ms[1..]) + tail;
    assert EncodeAll(ms) + tail == Encode(ms[0]) + after by {
      assert EncodeAll(ms) == Encode(ms[0]) + EncodeAll(ms[1..]);
    }
    ReadUnitsCons(port, net, transport, ms[0], after);
  }

  /** Units of a flow whose source port is the configured port never produce a trace line. */
  lemma ServerFlowSilent(port: int, net: Flow, transport: Flow, r: seq<Byte>, i: nat)
    requires FromServer(transport, port)
    requires i < |ReadUnits(port, net, transport, r)|
    ensures ResolvePacket(ReadUnits(port, net, transport, r)[i]) == Silent
  {
  }

  /** A stream holding exactly one message yields exactly its unit. */
  lemma SingleUnit(port: int, net: Flow, transport: Flow, m: Message)
    requires WellSized(m)
    ensures ReadUnits(port, net, transport, Encode(m)) == [UnitOf(m, !FromServer(transport, port), net, transport)]
  {
    ReadUnitsEncoded(port, net, transport, [m], []);
    assert EncodeAll([m]) + [] == Encode(m) by {
      assert EncodeAll([m]) == Encode(m) + EncodeAll([]);
    }
  }

  lemma InsertTrace(coll: seq<Byte>, doc: seq<Byte>)
    requires Encodable(Str(coll)) && Encodable(Doc(doc))
    ensures ResolveClientPacket(OP_INSERT, EncodeFields([I32(0), Str(coll), Doc(doc)])) == Trace(Insert, [Str(coll), Doc(doc)])
  {
    var fs := [I32(0), Str(coll), Doc(doc)];
    assert KindsOf(fs) == Layout(Insert);
    TraceOfRequest(Insert, fs, []);
    assert EncodeFields(fs) + [] == EncodeFields(fs);
    assert Pick(fs, Shown(Insert)) == [Str(coll), Doc(doc)];
  }

  /**
   * An INSERT of one document into `coll` sent from a client port becomes
   * one unit, traced as an Insert showing the collection name and the document.
   */
  lemma InsertScenario(port: int, net: Flow, transport: Flow, coll: seq<Byte>, doc: seq<Byte>)
    requires !FromServer(transport, port)
    requires Encodable(Str(coll)) && Encodable(Doc(doc))
    requires HeaderSize + |EncodeFields([I32(0), Str(coll), Doc(doc)])| < Two32
    ensures var body := EncodeFields([I32(0), Str(coll), Doc(doc)]);
            var units := ReadUnits(port, net, transport, Encode(Message(0, 0, OP_INSERT, body)));
            |units| == 1 && ResolvePacket(units[0]) == Trace(Insert, [Str(coll), Doc(doc)])
  {
    var fs := [I32(0), Str(coll), Doc(doc)];
    var body := EncodeFields(fs);
    var msg := Message(0, 0, OP_INSERT, body);
    SingleUnit(port, net, transport, msg);
    InsertTrace(coll, doc);
  }
}

=== FILE: plugin.dfy ===
/**
 * What the three protocol plugins (MongoDB, Redis, Postgres) share in shape:
 * the `-p` parameter loop of SetFlag, the capture filter, the direction test
 * and the addressing of a flow.
 */
module Plugin {
  import opened GoStrings
  import opened Strconv

  /** The only parameter key any plugin recognises. */
  const CmdPort := "-p"

  const FilterPrefix := "tcp and port "

  /** A byte of a reassembled TCP stream. */
  type Byte = b: int | 0 <= b < 256

  /** A gopacket flow reduced to its two endpoints in their string form. */
  datatype Flow = Flow(src: string, dst: string)

  predicate ValidPort(p: int) {
    0 <= p <= 65535
  }

  /** Why SetFlag stopped the process. */
  datatype Fault =
    | ParamCount    // the list has a length the plugin refuses
    | ParamIndex    // flg[i+1] read past the end of an odd-length list
    | UnknownKey    // a key other than "-p"
    | PortSyntax    // the value is not a decimal int
    | PortRange     // the value is outside 0..65535

  /**
   * How a call to SetFlag ends, with the port the plugin instance holds at
   * that moment: it returns normally, panics, or calls os.Exit(1).
   */
  datatype FlagOutcome =
    | Configured(port: int)
    | Panicked(port: int, fault: Fault)
    | Exited(port: int, fault: Fault)

  /**
   * Whether the `-p` branch stores the parsed port before looking at the
   * parse error (Redis, Postgres) or only after it (MongoDB).
   */
  datatype StoreOrder = CheckThenStore | StoreThenCheck

  /** The pair starting at `j` is `-p` followed by a decimal port in 0..65535. */
  predicate PortPair(flg: seq<string>, j: nat)
    requires j + 1 < |flg|
  {
    flg[j] == CmdPort && Atoi(flg[j + 1]).Num? && ValidPort(Atoi(flg[j + 1]).n)
  }

  /** From index `i` on, the list is a whole number of valid `-p` pairs. */
  predicate PortPairsFrom(flg: seq<string>, i: nat)
    requires i <= |flg|
  {
    && (|flg| - i) % 2 == 0
    && forall j :: i <= j < |flg| - 1 && (j - i) % 2 == 0 ==> PortPair(flg, j)
  }

  /**
   * The `for i := 0; i < c; i = i + 2` loop of SetFlag from index `i`, with
   * `port` the instance's port so far. `key := flg[i]` and `val := flg[i+1]`
   * are read before the key is looked at, so an odd list panics on the index
   * before its last key is checked.
   */
  function ApplyPairs(flg: seq<string>, i: nat, port: int, order: StoreOrder): (r: FlagOutcome)
    requires i <= |flg|
    ensures !r.Exited?
    ensures r.Configured? <==> PortPairsFrom(flg, i)
    ensures r.Configured? && i < |flg| ==> r.port == AtoiValue(Atoi(flg[|flg| - 1]))
    ensures r.Configured? && i == |flg| ==> r.port == port
    ensures i + 1 == |flg| ==> r == Panicked(port, ParamIndex)
    ensures i + 1 < |flg| && flg[i] != CmdPort ==> r == Panicked(port, UnknownKey)
    ensures i + 1 < |flg| && flg[i] == CmdPort && !Atoi(flg[i + 1]).Num? ==>
              r == Panicked(if order == StoreThenCheck then AtoiValue(Atoi(flg[i + 1])) else port, PortSyntax)
    ensures i + 1 < |flg| && flg[i] == CmdPort && Atoi(flg[i + 1]).Num? && !ValidPort(Atoi(flg[i + 1]).n) ==>
              r == Panicked(Atoi(flg[i + 1]).n, PortRange)
    decreases |flg| - i
  {
    if i == |flg| then Configured(port)
    else if i + 1 == |flg| then Panicked(port, ParamIndex)
    else if flg[i] != CmdPort then
      assert !PortPair(flg, i);
      Panicked(port, UnknownKey)
    else
      var parsed := Atoi(flg[i + 1]);
      assert !parsed.Num? || !ValidPort(parsed.n) ==> !PortPair(flg, i);
      if !parsed.Num? then
        Panicked(if order == StoreThenCheck then AtoiValue(parsed) else port, PortSyntax)
      else if !ValidPort(parsed.n) then Panicked(parsed.n, PortRange)
      else
        var r := ApplyPairs(flg, i + 2, parsed.n, order);
        assert PortPairsFrom(flg, i) <==> PortPair(flg, i) && PortPairsFrom(flg, i + 2);
        r
  }

  /**
   * A run of valid pairs is passed over: the loop reaches the pair at `j`
   * holding the port the pair before it stored.
   */
  lemma {:induction false} ApplyPairsSkipsValid(flg: seq<string>, i: nat, j: nat, port: int, order: StoreOrder)
    requires i <= j <= |flg| && (j - i) % 2 == 0
    requires forall p :: i <= p < j && (p - i) % 2 == 0 ==> p + 1 < |flg| && PortPair(flg, p)
    ensures ApplyPairs(flg, i, port, order) == ApplyPairs(flg, j, if j == i then port else AtoiValue(Atoi(flg[j - 1])), order)
    decreases j - i
  {
    if i < j {
      assert i + 1 < |flg| && PortPair(flg, i);
      ApplyPairsSkipsValid(flg, i + 2, j, Atoi(flg[i + 1]).n, order);
    }
  }

  /** "tcp and port " followed by the decimal port: the filter every plugin hands to the capture device. */
  function FilterFor(port: int): (f: string)
    ensures HasPrefix(f, FilterPrefix)
    ensures f[|FilterPrefix|..] == Itoa(port)
  {
    FilterPrefix + Itoa(port)
  }

  /** The filter names the configured port: parsing what follows the prefix gives the port back. */
  lemma FilterNamesPort(port: int)
    requires MinInt64 <= port <= MaxInt64
    ensures Atoi(FilterFor(port)[|FilterPrefix|..]) == Num(port)
  {
    AtoiItoa(port);
  }

  /** A unit whose source port prints as the configured port comes from the server. */
  predicate FromServer(transport: Flow, port: int) {
    transport.src == Itoa(port)
  }
}

=== FILE: postgres.dfy ===
/**
 * The Postgres plugin as it stands: the framing routine resolvePacketTo is
 * a stub whose real body is commented out, so every packet it yields is
 * empty and the per-stream resolver never hands one to a handler.
 */
module Postgres {
  import opened Wrappers
  import opened GoStrings
  import opened Strconv
  import opened Plugin
  import opened Registry

  const DefaultPort := 5432
  const DefaultVersion := "0.1"

  datatype Postgres = Postgres(port: int, version: string, source: Table)

  /** NewInstance under sync.Once: the first call builds the instance, later calls return it. */
  function NewInstance(global: Option<Postgres>): (m: Postgres)
    ensures global.Some? ==> m == global.value
    ensures global.None? ==> m.port == DefaultPort && m.version == DefaultVersion && m.source == map[]
  {
    if global.Some? then global.value else Postgres(DefaultPort, DefaultVersion, map[])
  }

  datatype Packet = Packet(isClientFlow: bool, seqNo: int, length: int, payload: seq<Byte>)

  /** The two errors the commented-out framing code could give. */
  datatype FrameError = Eof | Unknown

  /** What resolvePacketTo returns, what it wrote to the buffer and what it left of the reader. */
  datatype Framed = Framed(seqNo: Byte, err: Option<FrameError>, written: seq<Byte>, rest: seq<Byte>)

  /** resolvePacketTo: returns sequence number 0 and no error, reads nothing and writes nothing. */
  function ResolvePacketTo(r: seq<Byte>): (f: Framed)
    ensures f.err.None? && f.seqNo == 0
    ensures f.written == [] && f.rest == r
  {
    Framed(0, None, [], r)
  }

  /**
   * newPacket after the framing call: any error gives nil (so the io.EOF
   * test that follows can never succeed); otherwise a packet whose length
   * is the number of bytes written, flowing from the client unless the
   * source port is the configured one.
   */
  function PacketFrom(port: int, transport: Flow, f: Framed): (p: Option<Packet>)
    ensures p.None? <==> f.err.Some?
    ensures p.Some? ==> p.value.payload == f.written && p.value.length == |f.written|
    ensures p.Some? ==> p.value.seqNo == f.seqNo as int
    ensures p.Some? ==> p.value.isClientFlow == !FromServer(transport, port)
  {
    if f.err.Some? then None
    else Some(Packet(!FromServer(transport, port), f.seqNo as int, |f.written|, f.written))
  }

  /** newPacket with the stub in place: always a packet, always empty, and the reader untouched. */
  function NewPacket(port: int, transport: Flow, r: seq<Byte>): (p: Option<Packet>)
    ensures p.Some?
    ensures p.value.length == 0 && p.value.payload == [] && p.value.seqNo == 0
    ensures p.value.isClientFlow == !FromServer(transport, port)
  {
    PacketFrom(port, transport, ResolvePacketTo(r))
  }

  /**
   * The first n packets the loop of ResolveStream queues. newPacket never
   * returns nil, so the loop never ends; any prefix of its output is this.
   */
  function Pump(port: int, transport: Flow, r: seq<Byte>, n: nat): (ps: seq<Packet>)
    ensures |ps| == n
  {
    if n == 0 then []
    else
      var f := ResolvePacketTo(r);
      [PacketFrom(port, transport, f).value] + Pump(port, transport, f.rest, n - 1)
  }

  /** Every packet queued is the same empty packet, whatever the stream holds. */
  lemma {:induction false} PumpEmpty(port: int, transport: Flow, r: seq<Byte>, n: nat)
    ensures forall i :: 0 <= i < n ==> Pump(port, transport, r, n)[i] == Packet(!FromServer(transport, port), 0, 0, [])
  {
    if n > 0 {
      PumpEmpty(port, transport, r, n - 1);
    }
  }

  datatype Handler = ClientHandler | ServerHandler

  /** The select in stream.resolve: only a packet of non-zero length reaches a handler, chosen by direction. */
  function Dispatch(pk: Packet): (h: Option<Handler>)
    ensures h.None? <==> pk.length == 0
    ensures h == Some(ClientHandler) <==> pk.length != 0 && pk.isClientFlow
    ensures h == Some(ServerHandler) <==> pk.length != 0 && !pk.isClientFlow
  {
    if pk.length == 0 then None
    else if pk.isClientFlow then Some(ClientHandler)
    else Some(ServerHandler)
  }

  /** No queued packet ever reaches either handler. */
  lemma NoHandlerRuns(port: int, transport: Flow, r: seq<Byte>, n: nat, i: nat)
    requires i < n
    ensures Dispatch(Pump(port, transport, r, n)[i]).None?
  {
    PumpEmpty(port, transport, r, n);
  }

  datatype Resolved = Resolved(instance: Postgres, stream: StreamId, queued: seq<Packet>)

  /**
   * ResolveStream: registers the flow key (a stream is made only for a key
   * not yet in the table), then queues packets to that stream; `n` bounds how
   * much of the endless loop is observed.
   */
  function ResolveStream(m: Postgres, uuid: FlowKey, created: StreamId, transport: Flow, r: seq<Byte>, n: nat): (res: Resolved)
    ensures res.instance.port == m.port && res.instance.version == m.version
    ensures res.instance.source.Keys == m.source.Keys + {uuid}
    ensures forall k :: k in m.source ==> res.instance.source[k] == m.source[k]
    ensures res.stream == res.instance.source[uuid]
    ensures uuid !in m.source ==> res.stream == created
    ensures |res.queued| == n
    ensures forall i :: 0 <= i < n ==> res.queued[i] == Packet(!FromServer(transport, m.port), 0, 0, [])
  {
    PumpEmpty(m.port, transport, r, n);
    var table := Register(m.source, uuid, created);
    Resolved(m.(source := table), table[uuid], Pump(m.port, transport, r, n))
  }

  /**
   * SetFlag: an empty list keeps the port; a single item exits the process;
   * otherwise the pair loop runs, storing each parsed port before checking
   * it. An odd list of three or more panics on its last index at the latest.
   */
  function SetFlag(port: int, flg: seq<string>): (r: FlagOutcome)
    ensures r.Exited? <==> |flg| == 1
    ensures r.Exited? ==> r == Exited(port, ParamCount)
    ensures r.Configured? <==> PortPairsFrom(flg, 0)
    ensures |flg| % 2 == 1 ==> !r.Configured?
    ensures r.Configured? && |flg| == 0 ==> r.port == port
    ensures r.Configured? && |flg| > 0 ==> r.port == AtoiValue(Atoi(flg[|flg| - 1]))
  {
    var c := |flg|;
    if c == 0 then Configured(port)
    else if c / 2 == 0 then Exited(port, ParamCount)
    else ApplyPairs(flg, 0, port, StoreThenCheck)
  }

  /**
   * A failing list of two or more fails at its first bad pair: the pair at
   * even index `j` that dangles or is not a valid `-p` pair, every pair
   * before it being valid. The panic carries the port stored so far, which
   * for a syntax error is the value Atoi gave back, stored before the check.
   */
  lemma SetFlagFailure(port: int, flg: seq<string>, j: nat)
    requires 2 <= |flg| && j < |flg| && j % 2 == 0
    requires forall p :: 0 <= p < j && p % 2 == 0 ==> p + 1 < |flg| && PortPair(flg, p)
    requires j + 1 == |flg| || !PortPair(flg, j)
    ensures var stored := if j == 0 then port else AtoiValue(Atoi(flg[j - 1]));
            && (j + 1 == |flg| ==> SetFlag(port, flg) == Panicked(stored, ParamIndex))
            && (j + 1 < |flg| && flg[j] != CmdPort ==> SetFlag(port, flg) == Panicked(stored, UnknownKey))
            && (j + 1 < |flg| && flg[j] == CmdPort && !Atoi(flg[j + 1]).Num? ==>
                  SetFlag(port, flg) == Panicked(AtoiValue(Atoi(flg[j + 1])), PortSyntax))
            && (j + 1 < |flg| && flg[j] == CmdPort && Atoi(flg[j + 1]).Num? && !ValidPort(Atoi(flg[j + 1]).n) ==>
                  SetFlag(port, flg) == Panicked(Atoi(flg[j + 1]).n, PortRange))
  {
    ApplyPairsSkipsValid(flg, 0, j, port, StoreThenCheck);
  }

  function BPFFilter(m: Postgres): (f: string)
    ensures HasPrefix(f, FilterPrefix) && f[|FilterPrefix|..] == Itoa(m.port)
  {
    FilterFor(m.port)
  }

  /** Version answers the package constant, not the instance's field. */
  function Version(m: Postgres): (v: string)
    ensures v == DefaultVersion
  {
    DefaultVersion
  }
}

=== FILE: redis.dfy ===
/**
 * The Redis plugin: a line-oriented decoder for the part of RESP (the Redis
 * serialization protocol) it understands, arrays from clients and "-ERR"
 * errors from the server. A stream is the sequence of lines bufio.ReadLine
 * returns, without their line endings; running out of lines is ReadLine's
 * empty result at end of stream.
 */
module Redis {
  import opened GoStrings
  import opened Strconv
  import opened Plugin

  const DefaultPort := 6379
  const DefaultVersion := "0.1"
  const ErrPrefix := "-ERR"
  const ArrayPrefix := "*"

  /** The plugin instance (the command and done channels are not modelled). */
  datatype Redis = Redis(port: int, version: string)

  /**
   * The one global instance as the package initialises it, before any
   * SetFlag: NewInstance always hands out this instance, and SetFlag later
   * overwrites the port it holds.
   */
  function NewInstance(): (red: Redis)
    ensures red.port == DefaultPort && red.version == DefaultVersion
  {
    Redis(DefaultPort, DefaultVersion)
  }

  /**
   * What ResolveStream prints for a line, without the timestamp and address
   * prefix: a server error reply, a reconstructed client command, or the
   * index-out-of-range panic that ends the process.
   */
  datatype Event = ErrorReply(line: string) | Command(text: string) | IndexPanic

  /** resolveServer: only a line that starts with "-ERR" is an error reply worth tracing. */
  predicate ResolveServer(line: string) {
    HasPrefix(line, ErrPrefix)
  }

  /** The line ReadLine gives at position `j`: past the end, the empty line of end of stream. */
  function LineAt(lines: seq<string>, j: nat): string {
    if j < |lines| then lines[j] else ""
  }

  /**
   * The element count of an array line: strconv.Atoi of the single
   * character line[1], its error ignored, so anything but a digit counts 0
   * and "*12" counts 1.
   */
  function CountOf(line: string): (n: nat)
    requires |line| >= 2
    ensures IsDigit(line[1]) ==> n == DigitValue(line[1])
    ensures !IsDigit(line[1]) ==> n == 0
  {
    var parsed := Atoi([line[1]]);
    assert IsDigit(line[1]) ==> ScanDigits([line[1]], 0) == Value(DigitValue(line[1]));
    AtoiValue(parsed)
  }

  /** Each argument preceded by one space: how the trace shows a command. */
  function Spaced(args: seq<string>): string {
    if |args| == 0 then "" else " " + args[0] + Spaced(args[1..])
  }

  /** The odd-indexed lines among the first 2n lines: the values of an n-element array. */
  function OddLines(more: seq<string>, n: nat): (vals: seq<string>)
    ensures |vals| == n && forall k :: 0 <= k < n ==> vals[k] == LineAt(more, 2 * k + 1)
  {
    ValuesFrom(more, 0, n)
  }

  /** The values of elements i to n-1. */
  function ValuesFrom(more: seq<string>, i: nat, n: nat): (vals: seq<string>)
    requires i <= n
    ensures |vals| == n - i
    ensures forall k :: 0 <= k < n - i ==> vals[k] == LineAt(more, 2 * (i + k) + 1)
    decreases n - i
  {
    if i == n then []
    else
      [LineAt(more, 2 * i + 1)] + ValuesFrom(more, i + 1, n)
  }

  /**
   * The loop `for j := 0; j < cmdCount*2; j++` of resolveClient from `j`:
   * every line is read, even-indexed ones (the "$len" lines) are skipped and
   * odd-indexed ones are appended after a space.
   */
  function CollectFrom(more: seq<string>, j: nat, end: nat): string
    decreases end - j
  {
    if j >= end then ""
    else (if j % 2 == 0 then "" else " " + LineAt(more, j)) + CollectFrom(more, j + 1, end)
  }

  lemma {:induction false} CollectIsSpaced(more: seq<string>, i: nat, n: nat)
    requires i <= n
    ensures CollectFrom(more, 2 * i, 2 * n) == Spaced(ValuesFrom(more, i, n))
    decreases n - i
  {
    if i < n {
      CollectIsSpaced(more, i + 1, n);
      CollectPair(more, i, n);
      var vals := ValuesFrom(more, i, n);
      assert vals[0] == LineAt(more, 2 * i + 1) && vals[1..] == ValuesFrom(more, i + 1, n);
    }
  }

  /** One step of the loop over a "$len" line and its value line. */
  lemma CollectPair(more: seq<string>, i: nat, n: nat)
    requires i < n
    ensures CollectFrom(more, 2 * i, 2 * n) == " " + LineAt(more, 2 * i + 1) + CollectFrom(more, 2 * i + 2, 2 * n)
  {
    assert (2 * i) % 2 == 0 && (2 * i + 1) % 2 == 1;
  }

  /** A reconstructed command and the number of lines read after the array line. */
  datatype ClientRead = ClientRead(cmd: string, used: nat)

  /**
   * resolveClient: reads exactly 2N more lines, N the count in line[1], and
   * gives " " followed by " " + v for each odd-indexed line v, in order.
   */
  function ResolveClient(line: string, more: seq<string>): (c: ClientRead)
    requires |line| >= 2
    ensures c.used == 2 * CountOf(line)
    ensures c.cmd == " " + Spaced(OddLines(more, CountOf(line)))
  {
    var n := CountOf(line);
    CollectIsSpaced(more, 0, n);
    ClientRead(" " + CollectFrom(more, 0, 2 * n), 2 * n)
  }

  /**
   * The loop of ResolveStream over the lines of one direction. Server lines
   * are traced only when they are "-ERR" replies. Client lines not starting
   * with "*" are dropped; an array line is followed by its 2N lines; a bare
   * "*" panics on line[1]. An empty line is dropped like any other.
   */
  function ResolveLines(lines: seq<string>, fromServer: bool): (events: seq<Event>)
    ensures |events| <= |lines|
    ensures fromServer ==> forall k :: 0 <= k < |events| ==> events[k].ErrorReply? && ResolveServer(events[k].line)
    ensures !fromServer ==> forall k :: 0 <= k < |events| ==> !events[k].ErrorReply?
    ensures forall k :: 0 <= k < |events| - 1 ==> !events[k].IndexPanic?
    decreases |lines|
  {
    if |lines| == 0 then []
    else
      var line := lines[0];
      if fromServer then
        (if ResolveServer(line) then [ErrorReply(line)] else []) + ResolveLines(lines[1..], true)
      else if !HasPrefix(line, ArrayPrefix) then ResolveLines(lines[1..], false)
      else if |line| < 2 then [IndexPanic]
      else
        var c := ResolveClient(line, lines[1..]);
        var next := if 1 + c.used <= |lines| then 1 + c.used else |lines|;
        [Command(c.cmd)] + ResolveLines(lines[next..], false)
  }

  /** Direction of a Redis flow: the source port compared case-insensitively with the configured port. */
  predicate IsServerFlow(transport: Flow, port: int) {
    EqualFold(transport.src, Itoa(port))
  }

  /** ResolveStream on the lines of one flow, for the receiver's port. */
  function ResolveStream(red: Redis, transport: Flow, lines: seq<string>): (events: seq<Event>)
    ensures FromServer(transport, red.port) ==>
              forall k :: 0 <= k < |events| ==> events[k].ErrorReply? && ResolveServer(events[k].line)
    ensures !FromServer(transport, red.port) ==> forall k :: 0 <= k < |events| ==> !events[k].ErrorReply?
  {
    DirectionIsExact(transport, red.port);
    ResolveLines(lines, IsServerFlow(transport, red.port))
  }

  /** Because a port prints without letters, the case-insensitive test is the same as the other plugins' exact one. */
  lemma DirectionIsExact(transport: Flow, port: int)
    ensures IsServerFlow(transport, port) <==> FromServer(transport, port)
  {
    ItoaHasNoLetters(port);
    EqualFoldWithoutLetters(transport.src, Itoa(port));
  }

  /** The server side is line by line: the events of two runs of lines are the events of each, concatenated. */
  lemma {:induction false} ServerLinesAppend(a: seq<string>, b: seq<string>)
    ensures ResolveLines(a + b, true) == ResolveLines(a, true) + ResolveLines(b, true)
    decreases |a|
  {
    if |a| == 0 {
      assert a + b == b;
    } else {
      assert (a + b)[0] == a[0];
      assert (a + b)[1..] == a[1..] + b;
      ServerLinesAppend(a[1..], b);
    }
  }

  /** A single server line is traced exactly when it is a "-ERR" reply. */
  lemma ServerLine(line: string)
    ensures ResolveLines([line], true) == if ResolveServer(line) then [ErrorReply(line)] else []
  {
    assert [line][1..] == [];
  }

  /** "-ERR wrong type" is traced; "+OK" and other error kinds such as "-WRONGTYPE" are not. */
  lemma ServerReplyExamples()
    ensures ResolveLines(["-ERR wrong type"], true) == [ErrorReply("-ERR wrong type")]
    ensures ResolveLines(["+OK"], true) == []
    ensures ResolveLines(["-WRONGTYPE Operation"], true) == []
  {
    assert ResolveServer("-ERR wrong type") by {
      assert "-ERR wrong type"[..4] == ErrPrefix;
    }
    assert !ResolveServer("-WRONGTYPE Operation") by {
      NotErrReply("-WRONGTYPE Operation");
    }
    ServerLine("-ERR wrong type");
    ServerLine("+OK");
    ServerLine("-WRONGTYPE Operation");
  }

  lemma NotErrReply(line: string)
    requires |line| >= 4 && line[1] != ErrPrefix[1]
    ensures !ResolveServer(line)
  {
    assert line[..4][1] == line[1];
  }

  /** An empty line never produces anything, in either direction. */
  lemma EmptyLineSilent(rest: seq<string>, fromServer: bool)
    ensures ResolveLines([""] + rest, fromServer) == ResolveLines(rest, fromServer)
  {
    assert ([""] + rest)[1..] == rest;
  }

  /** A client line that does not start with "*" is dropped without output. */
  lemma NonArrayClientLineDropped(line: string, rest: seq<string>)
    requires !HasPrefix(line, ArrayPrefix)
    ensures ResolveLines([line] + rest, false) == ResolveLines(rest, false)
  {
    assert ([line] + rest)[1..] == rest;
  }

  /** A bare "*" line ends the client stream with the index panic. */
  lemma BareStarPanics(rest: seq<string>)
    ensures ResolveLines(["*"] + rest, false) == [IndexPanic]
  {
    assert HasPrefix("*", ArrayPrefix);
  }

  // ---------------------------------------------------------------- encoding

  /** The "$len" and value lines of the array elements. */
  function BulkLines(args: seq<string>): (ls: seq<string>)
    ensures |ls| == 2 * |args|
    ensures forall k :: 0 <= k < |args| ==> ls[2 * k + 1] == args[k]
  {
    if |args| == 0 then []
    else
      var tail := BulkLines(args[1..]);
      var ls := ["$" + Itoa(|args[0]|), args[0]] + tail;
      assert forall k :: 1 <= k < |args| ==> ls[2 * k + 1] == tail[2 * (k - 1) + 1];
      ls
  }

  /** A command of one to nine arguments in RESP array form, one line per element of the wire encoding. */
  function EncodeCommand(args: seq<string>): (ls: seq<string>)
    requires 1 <= |args| <= 9
  {
    ["*" + [DigitChar(|args|)]] + BulkLines(args)
  }

  /**
   * A client command of one to nine arguments is traced as the arguments
   * each after a space, behind the leading space, and decoding continues
   * right after it.
   */
  lemma CommandRoundTrip(args: seq<string>, rest: seq<string>)
    requires 1 <= |args| <= 9
    ensures ResolveLines(EncodeCommand(args) + rest, false)
            == [Command(" " + Spaced(args))] + ResolveLines(rest, false)
  {
    var head := "*" + [DigitChar(|args|)];
    var bulk := BulkLines(args);
    var lines := EncodeCommand(args) + rest;
    assert lines[0] == head && lines[1..] == bulk + rest;
    assert HasPrefix(head, ArrayPrefix);
    assert CountOf(head) == |args|;
    var vals := OddLines(bulk + rest, |args|);
    forall k | 0 <= k < |args|
      ensures vals[k] == args[k]
    {
      assert LineAt(bulk + rest, 2 * k + 1) == bulk[2 * k + 1];
    }
    assert vals == args;
    assert lines[1 + 2 * |args|..] == rest;
  }

  /** The wire lines of SET foo bar. */
  lemma EncodeSetFooBar()
    ensures EncodeCommand(["SET", "foo", "bar"]) == ["*3", "$3", "SET", "$3", "foo", "$3", "bar"]
  {
    var args := ["SET", "foo", "bar"];
    assert "$" + Itoa(3) == "$3";
    assert "*" + [DigitChar(3)] == "*3";
    assert args[1..] == ["foo", "bar"] && args[1..][1..] == ["bar"] && ["bar"][1..] == [];
    assert BulkLines(["bar"]) == ["$" + Itoa(|"bar"|), "bar"] + BulkLines([]) == ["$3", "bar"];
    assert BulkLines(["foo", "bar"]) == ["$" + Itoa(|"foo"|), "foo"] + BulkLines(["bar"]) == ["$3", "foo", "$3", "bar"];
    assert BulkLines(args) == ["$" + Itoa(|"SET"|), "SET"] + BulkLines(["foo", "bar"]);
  }

  /** The multi-bulk form of SET foo bar is traced as " SET foo bar" after the leading space. */
  lemma SetFooBar()
    ensures ResolveLines(["*3", "$3", "SET", "$3", "foo", "$3", "bar"], false) == [Command("  SET foo bar")]
  {
    var args := ["SET", "foo", "bar"];
    CommandRoundTrip(args, []);
    EncodeSetFooBar();
    assert EncodeCommand(args) + [] == EncodeCommand(args);
    SpacedSetFooBar();
  }

  lemma SpacedSetFooBar()
    ensures " " + Spaced(["SET", "foo", "bar"]) == "  SET foo bar"
  {
    var args := ["SET", "foo", "bar"];
    assert args[1..] == ["foo", "bar"] && args[1..][1..] == ["bar"] && ["bar"][1..] == [];
    assert Spaced(["bar"]) == " bar";
    assert Spaced(["foo", "bar"]) == " foo bar";
  }

  // ----------------------------------------------------------- configuration

  /**
   * SetFlag: an empty list keeps the port; any length whose half is not 1
   * panics; the pair loop stores the parsed port into the global instance
   * before checking the parse error and the range.
   */
  function SetFlag(port: int, flg: seq<string>): (r: FlagOutcome)
    ensures !r.Exited?
    ensures |flg| == 0 ==> r == Configured(port)
    ensures |flg| != 0 && |flg| != 2 && |flg| != 3 ==> r == Panicked(port, ParamCount)
    ensures |flg| == 3 ==> r.Panicked?
    ensures r.Configured? <==> |flg| == 0 || (|flg| == 2 && PortPair(flg, 0))
    ensures r.Configured? && |flg| == 2 ==> r.port == AtoiValue(Atoi(flg[1]))
    ensures (|flg| == 2 || |flg| == 3) && flg[0] != CmdPort ==> r == Panicked(port, UnknownKey)
    ensures (|flg| == 2 || |flg| == 3) && flg[0] == CmdPort && !Atoi(flg[1]).Num? ==>
              r == Panicked(AtoiValue(Atoi(flg[1])), PortSyntax)
    ensures (|flg| == 2 || |flg| == 3) && flg[0] == CmdPort && Atoi(flg[1]).Num? && !ValidPort(Atoi(flg[1]).n) ==>
              r == Panicked(Atoi(flg[1]).n, PortRange)
    ensures |flg| == 3 && PortPair(flg, 0) ==> r == Panicked(Atoi(flg[1]).n, ParamIndex)
  {
    var c := |flg|;
    if c == 0 then Configured(port)
    else if c / 2 != 1 then Panicked(port, ParamCount)
    else
      assert c == 2 ==> (PortPairsFrom(flg, 0) <==> PortPair(flg, 0));
      ApplyPairsSkipsValid(flg, 0, if c == 3 && PortPair(flg, 0) then 2 else 0, port, StoreThenCheck);
      ApplyPairs(flg, 0, port, StoreThenCheck)
  }

  /** BPFFilter reads the port of the global instance, whatever the receiver holds. */
  function BPFFilter(receiver: Redis, global: Redis): (f: string)
    ensures HasPrefix(f, FilterPrefix) && f[|FilterPrefix|..] == Itoa(global.port)
  {
    FilterFor(global.port)
  }

  function Version(red: Redis): (v: string)
    ensures v == red.version
  {
    red.version
  }
}

=== FILE: registry.dfy ===
/**
 * The per-flow stream table of the MongoDB and Postgres plugins: a map from
 * the flow key ("<net hash>:<transport hash>") to the stream that owns the
 * flow. Streams are named by numbers; creating a stream takes the next
 * unused number.
 */
module Registry {

  type FlowKey = string
  type StreamId = nat

  type Table = map<FlowKey, StreamId>

  /**
   * The registry step of ResolveStream: a new stream is made for `uuid` only
   * when the table has no entry for it; an existing entry is never replaced.
   */
  function Register(m: Table, uuid: FlowKey, created: StreamId): (r: Table)
    ensures r.Keys == m.Keys + {uuid}
    ensures r[uuid] == if uuid in m then m[uuid] else created
    ensures forall k :: k in m ==> r[k] == m[k]
  {
    if uuid in m then m else m[uuid := created]
  }

  /** No two keys share a stream. */
  ghost predicate Injective(m: Table) {
    forall a, b :: a in m && b in m && a != b ==> m[a] != m[b]
  }

  /** Every stream in the table is numbered below `next`. */
  ghost predicate Below(m: Table, next: StreamId) {
    forall k :: k in m ==> m[k] < next
  }

  /** The table after a run of units, the next free stream number, and the stream each unit was sent to. */
  datatype Routing = Routing(table: Table, next: StreamId, routes: seq<StreamId>)

  /** Registering the key of each unit in turn, numbering new streams from `next`, and sending the unit to `table[uuid]`. */
  function RouteAll(m: Table, next: StreamId, keys: seq<FlowKey>): (r: Routing)
    ensures |r.routes| == |keys|
    decreases |keys|
  {
    if |keys| == 0 then Routing(m, next, [])
    else
      var m1 := Register(m, keys[0], next);
      var next1 := if keys[0] in m then next else next + 1;
      var rest := RouteAll(m1, next1, keys[1..]);
      Routing(rest.table, rest.next, [m1[keys[0]]] + rest.routes)
  }

  /**
   * Routing keeps the table one-to-one and every unit goes to the stream its
   * key maps to at the end; entries once made are never changed.
   */
  lemma RouteAllInvariant(m: Table, next: StreamId, keys: seq<FlowKey>)
    requires Injective(m) && Below(m, next)
    ensures var r := RouteAll(m, next, keys);
            && Injective(r.table) && Below(r.table, r.next)
            && (forall k :: k in m ==> k in r.table && r.table[k] == m[k])
            && (forall i :: 0 <= i < |keys| ==> keys[i] in r.table && r.routes[i] == r.table[keys[i]])
  {
    RouteAllOneToOne(m, next, keys);
    RouteAllKeeps(m, next, keys);
    RouteAllRoutes(m, next, keys);
  }

  lemma {:induction false} RouteAllOneToOne(m: Table, next: StreamId, keys: seq<FlowKey>)
    requires Injective(m) && Below(m, next)
    ensures Injective(RouteAll(m, next, keys).table) && Below(RouteAll(m, next, keys).table, RouteAll(m, next, keys).next)
    decreases |keys|
  {
    if |keys| > 0 {
      RegisterStep(m, keys[0], next);
      RouteAllOneToOne(Register(m, keys[0], next), if keys[0] in m then next else next + 1, keys[1..]);
    }
  }

  /** Entries already in the table survive routing unchanged, and every routed key ends up in it. */
  lemma {:induction false} RouteAllKeeps(m: Table, next: StreamId, keys: seq<FlowKey>)
    ensures forall k :: k in m ==> k in RouteAll(m, next, keys).table && RouteAll(m, next, keys).table[k] == m[k]
    ensures forall i :: 0 <= i < |keys| ==> keys[i] in RouteAll(m, next, keys).table
    decreases |keys|
  {
    if |keys| > 0 {
      var m1 := Register(m, keys[0], next);
      RouteAllKeeps(m1, if keys[0] in m then next else next + 1, keys[1..]);
      forall i | 0 < i < |keys|
        ensures keys[i] == keys[1..][i - 1]
      {
      }
    }
  }

  lemma {:induction false} RouteAllRoutes(m: Table, next: StreamId, keys: seq<FlowKey>)
    ensures forall i :: 0 <= i < |keys| ==>
              (keys[i] in RouteAll(m, next, keys).table
               && RouteAll(m, next, keys).routes[i] == RouteAll(m, next, keys).table[keys[i]])
    decreases |keys|
  {
    RouteAllKeeps(m, next, keys);
    if |keys| > 0 {
      var m1 := Register(m, keys[0], next);
      var next1 := if keys[0] in m then next else next + 1;
      RouteAllKeeps(m1, next1, keys[1..]);
      RouteAllRoutes(m1, next1, keys[1..]);
      forall i | 0 < i < |keys|
        ensures keys[i] == keys[1..][i - 1]
      {
      }
    }
  }

  /** Registering a key with the next free number keeps the table one-to-one and below the new next number. */
  lemma RegisterStep(m: Table, key: FlowKey, next: StreamId)
    requires Injective(m) && Below(m, next)
    ensures Injective(Register(m, key, next))
    ensures Below(Register(m, key, next), if key in m then next else next + 1)
  {
  }

  /** Two units of the same flow always reach the same stream. */
  lemma SameFlowSameStream(m: Table, next: StreamId, keys: seq<FlowKey>, i: nat, j: nat)
    requires Injective(m) && Below(m, next)
    requires i < |keys| && j < |keys| && keys[i] == keys[j]
    ensures RouteAll(m, next, keys).routes[i] == RouteAll(m, next, keys).routes[j]
  {
    RouteAllInvariant(m, next, keys);
  }

  /** Units of different flows never share a stream. */
  lemma DifferentFlowsDifferentStreams(m: Table, next: StreamId, keys: seq<FlowKey>, i: nat, j: nat)
    requires Injective(m) && Below(m, next)
    requires i < |keys| && j < |keys| && keys[i] != keys[j]
    ensures RouteAll(m, next, keys).routes[i] != RouteAll(m, next, keys).routes[j]
  {
    RouteAllInvariant(m, next, keys);
  }
}

=== FILE: strconv.dfy ===
/**
 * Go's strconv.Itoa and strconv.Atoi on a 64-bit platform (where `int` is
 * 64 bits wide), as far as the sniffer uses them: formatting a port number
 * and parsing a port parameter or a one-character element count.
 */
module Strconv {

  const MaxUint64: int := 0xFFFF_FFFF_FFFF_FFFF
  const MaxInt64: int := 0x7FFF_FFFF_FFFF_FFFF
  const MinInt64: int := -0x8000_0000_0000_0000

  predicate IsDigit(ch: char) {
    '0' <= ch <= '9'
  }

  predicate AllDigits(s: string) {
    forall i :: 0 <= i < |s| ==> IsDigit(s[i])
  }

  function DigitValue(ch: char): (d: nat)
    requires IsDigit(ch)
    ensures d < 10
  {
    ch as int - '0' as int
  }

  function DigitChar(d: nat): (ch: char)
    requires d < 10
    ensures IsDigit(ch) && DigitValue(ch) == d
  {
    ('0' as int + d) as char
  }

  /** The number a string of decimal digits denotes (positional notation, most significant first). */
  function DecimalValue(s: string): nat
    requires AllDigits(s)
  {
    if |s| == 0 then 0 else DecimalValue(s[..|s| - 1]) * 10 + DigitValue(s[|s| - 1])
  }

  /** The shortest decimal digits of `n`. */
  function NatDigits(n: nat): (s: string)
    ensures |s| >= 1 && AllDigits(s)
    ensures DecimalValue(s) == n
    ensures n > 0 ==> s[0] != '0'
    ensures n == 0 ==> s == "0"
  {
    if n < 10 then [DigitChar(n)]
    else
      var p := NatDigits(n / 10);
      var s := p + [DigitChar(n % 10)];
      assert s[..|s| - 1] == p;
      s
  }

  /** strconv.Itoa: decimal form, with a leading '-' for negative numbers. */
  function Itoa(n: int): (s: string)
    ensures |s| >= 1
    ensures s[0] == '-' <==> n < 0
    ensures n >= 0 ==> AllDigits(s) && DecimalValue(s) == n
    ensures n < 0 ==> AllDigits(s[1..]) && |s| >= 2 && DecimalValue(s[1..]) == -n
    ensures n >= 0 && |s| > 1 ==> s[0] != '0'
    ensures n < 0 ==> s[1] != '0'
  {
    if n < 0 then
      var s := "-" + NatDigits(-n);
      assert s[1..] == NatDigits(-n);
      s
    else NatDigits(n)
  }

  /** What the digit loop of strconv.ParseUint (base 10, 64 bits) reaches. */
  datatype UintScan = Value(v: nat) | BadSyntax | Overflow

  /**
   * The digit loop of strconv.ParseUint in base 10 with a 64-bit limit,
   * from the accumulated value `acc`: a character that is not a digit is a
   * syntax error, and the value passing 2^64-1 is a range error, whichever
   * is met first from the left.
   */
  function ScanDigits(s: string, acc: nat): UintScan
    decreases |s|
  {
    if |s| == 0 then Value(acc)
    else if !IsDigit(s[0]) then BadSyntax
    else
      var next := acc * 10 + DigitValue(s[0]);
      if next > MaxUint64 then Overflow else ScanDigits(s[1..], next)
  }

  /** The outcome of strconv.Atoi: a number, or one of its two error kinds. */
  datatype AtoiResult = Num(n: int) | SyntaxError | RangeError(clamped: int)

  /** The text after an optional leading sign. */
  function Unsigned(s: string): string {
    if |s| > 0 && (s[0] == '+' || s[0] == '-') then s[1..] else s
  }

  /** An optional sign followed by at least one decimal digit. */
  predicate WellFormed(s: string) {
    |Unsigned(s)| > 0 && AllDigits(Unsigned(s))
  }

  /** The signed value a well-formed decimal denotes, unbounded. */
  function SignedValue(s: string): int
    requires WellFormed(s)
  {
    var v: int := DecimalValue(Unsigned(s));
    if s[0] == '-' then -v else v
  }

  /**
   * strconv.Atoi with a 64-bit int. Go's fast path for short inputs and its
   * ParseInt path agree on every input; this follows ParseInt: take off one
   * sign, scan the digits, then check the signed range.
   */
  function Atoi(s: string): (r: AtoiResult)
    ensures r.Num? ==> MinInt64 <= r.n <= MaxInt64
    ensures r.RangeError? ==> r.clamped == MinInt64 || r.clamped == MaxInt64
  {
    if |s| == 0 then SyntaxError
    else
      var neg := s[0] == '-';
      var body := Unsigned(s);
      if |body| == 0 then SyntaxError
      else
        match ScanDigits(body, 0)
        case BadSyntax => SyntaxError
        case Overflow => RangeError(if neg then MinInt64 else MaxInt64)
        case Value(v) =>
          var u: int := v;
          if !neg && u > MaxInt64 then RangeError(MaxInt64)
          else if neg && u > -MinInt64 then RangeError(MinInt64)
          else Num(if neg then -u else u)
  }

  /** The int that Go's Atoi returns beside its error: 0 on a syntax error, the clamped bound on a range error. */
  function AtoiValue(r: AtoiResult): int {
    match r
    case Num(n) => n
    case SyntaxError => 0
    case RangeError(c) => c
  }

  /** Scanning one more character extends the scan of the prefix. */
  lemma {:induction false} ScanSnoc(p: string, ch: char, acc: nat)
    ensures ScanDigits(p + [ch], acc) ==
              match ScanDigits(p, acc)
              case Value(v) =>
                if !IsDigit(ch) then BadSyntax
                else if v * 10 + DigitValue(ch) > MaxUint64 then Overflow
                else Value(v * 10 + DigitValue(ch))
              case other => other
    decreases |p|
  {
    if |p| > 0 {
      assert (p + [ch])[0] == p[0];
      assert (p + [ch])[1..] == p[1..] + [ch];
      if IsDigit(p[0]) {
        ScanSnoc(p[1..], ch, acc * 10 + DigitValue(p[0]));
      }
    } else {
      assert p + [ch] == [ch];
    }
  }

  /** On digits only, the scan yields the decimal value unless it passes 2^64-1. */
  lemma {:induction false} ScanAllDigits(s: string)
    requires AllDigits(s)
    ensures ScanDigits(s, 0) == if DecimalValue(s) > MaxUint64 then Overflow else Value(DecimalValue(s))
    decreases |s|
  {
    if |s| > 0 {
      var p := s[..|s| - 1];
      assert s == p + [s[|s| - 1]];
      ScanAllDigits(p);
      ScanSnoc(p, s[|s| - 1], 0);
    }
  }

  /** A scan that produces a value has met only digits. */
  lemma {:induction false} ScanValueOnlyDigits(s: string, acc: nat)
    requires ScanDigits(s, acc).Value?
    ensures AllDigits(s)
    decreases |s|
  {
    if |s| > 0 {
      ScanValueOnlyDigits(s[1..], acc * 10 + DigitValue(s[0]));
    }
  }

  /**
   * Atoi, stated against the arithmetic meaning of its input: a well-formed
   * decimal gives its value when it fits 64 bits and a range error
   * otherwise; anything else is never a number.
   */
  lemma AtoiMeaning(s: string)
    ensures WellFormed(s) ==>
              Atoi(s) == if SignedValue(s) < MinInt64 then RangeError(MinInt64)
                         else if SignedValue(s) > MaxInt64 then RangeError(MaxInt64)
                         else Num(SignedValue(s))
    ensures !WellFormed(s) ==> !Atoi(s).Num?
  {
    var body := Unsigned(s);
    if WellFormed(s) {
      ScanAllDigits(body);
    } else if |s| > 0 && |body| > 0 && ScanDigits(body, 0).Value? {
      ScanValueOnlyDigits(body, 0);
    }
  }

  /** Itoa and Atoi are inverse on every 64-bit int. */
  lemma AtoiItoa(n: int)
    requires MinInt64 <= n <= MaxInt64
    ensures Atoi(Itoa(n)) == Num(n)
  {
    var s := Itoa(n);
    assert Unsigned(s) == if n < 0 then s[1..] else s;
    AtoiMeaning(s);
  }

  /** A decimal number never contains an ASCII letter. */
  lemma ItoaHasNoLetters(n: int)
    ensures forall i :: 0 <= i < |Itoa(n)| ==> Itoa(n)[i] == '-' || IsDigit(Itoa(n)[i])
  {
    var s := Itoa(n);
    if n < 0 {
      forall i | 0 <= i < |s|
        ensures s[i] == '-' || IsDigit(s[i])
      {
        if i > 0 {
          assert s[i] == s[1..][i - 1];
        }
      }
    }
  }
}

=== FILE: wrappers.dfy ===
/** Failure-carrying wrappers used across the model in place of Go's nil results. */
module Wrappers {

  /** A value that may be absent; `None` plays the part of Go's nil. */
  datatype Option<+T> = None | Some(value: T)
}
